=== FILE: README.md ===
# e2fyi-utils core, modelled in Dafny

This project models the I/O core of the `e2fyi-utils` Python package:

- `HttpStream`: a file-like handle over a URL. It owns a temporary file. It fetches the URL with one GET the first time it is read or iterated, and keeps that response. In "w" or "a" mode, leaving its `with` scope POSTs what the file holds.
- `S3Stream`: a stream tagged with a MIME type. Its `from_*` conversions turn Python objects into streams.
- `S3Resource`: one object in an S3 bucket. It covers:
  - the object's filename, prefix, key and URI;
  - the content-type precedence;
  - the stream, downloaded once and cached;
  - `load`, `save` and `__str__`.
- `S3Bucket`: a bucket with a prefix rule. It builds keys and URIs, lists its objects page by page as resources, and creates resources.
- `Maybe`: a value together with the exception that may have stopped it.

Everything is modelled as immutable datatypes and pure functions that return the new state. The outside world becomes parameters:

- the HTTP reply;
- the POST status;
- the bytes `download_fileobj` would deliver;
- whether `upload_fileobj` succeeds;
- the `list_objects_v2` pages;
- `uuid4().hex`;
- the JSON, pickle and pandas serialisers;
- the file system.

Each handle or resource keeps a log of the requests it issued. Properties such as "reads fetch at most once" and "save uploads exactly the content" are stated over that log.

The files are:

- `wrappers.dfy`: `Option`, `Result` and the Python exceptions raised.
- `pystr.dfy`: the string helpers the code relies on: `rfind`, `posixpath.dirname` and `join`, `str.split` and `join`.
- `file_buffer.dfy`: the in-memory file (`BytesIO`, `StringIO`, and a spooled temporary file that never rolls over).
- `http_stream.dfy`, `http_properties.dfy`: `HttpStream`.
- `s3_stream.dfy`, `s3_resource.dfy`, `s3_bucket.dfy`: the S3 layer.
- `maybe.dfy`: `Maybe`.

Where the documentation and the code disagree, the model follows the code:

- Entering a "w" scope does not mark the handle as fetched. A read inside the scope therefore GETs the URL and discards what was written (`ReadInsideWriteScopeDiscardsWrites`).
- `__iter__` iterates over the stored response. A handle that already fetched issues no new request.
- `__exit__` forgets the response, so a later read fetches again.
- A filename ending in "/" (for example "dir/") leaves an empty filename, not a random one (`TrailingSlashEmptiesFilename`). Only an empty filename gets the random name.
- A stream downloaded for a resource built without a content type is typed "". The resource's `content_type` is then "", not "application/octet-stream" (`DownloadedStreamTakesGivenType`).
- A stream made by pickling an object is left with its cursor at the end of the pickle, because `joblib.dump` writes into it and nothing seeks back. A `read()` before a seek returns no bytes (`PickledStreamReadsEmptyUntilRewound`). `save` and `get_value` rewind first, so they still see the whole pickle.
- `Maybe` prints "None" for a falsy value with no exception (`FalsyValuePrintsNone`). For example, `Maybe(0)` prints "None", not "0".

## Model

| member | source | states |
|---|---|---|
| Http.Seek | e2fyi/utils/core/http.py:58-59 | seek moves only the file cursor; it fails exactly when the file's seek fails, and then changes nothing; the result is the new position |
| Http.Tell | e2fyi/utils/core/http.py:61-62 | tell succeeds exactly while the file is open and returns the cursor |
| Http.Close | e2fyi/utils/core/http.py:64-65 | close closes the file and keeps its content and cursor; nothing else about the handle changes |
| Http.Write | e2fyi/utils/core/http.py:67-68 | write is a plain file write: no request, result is the written length, failure (closed file, str vs bytes) changes nothing |
| Http.IsEmpty | e2fyi/utils/core/http.py:70-76 | is_empty answers whether the file holds no data, whatever the cursor, and leaves the handle exactly as it was (cursor restored); a closed file raises ValueError |
| Http.Flush | e2fyi/utils/core/http.py:85-86 | flush changes nothing and fails exactly when the file is closed |
| HttpProperties.FetchesGoThroughGetRequest | e2fyi/utils/core/http.py:78-122 | on an unfetched handle, read and __iter__ both fetch through _read2state: they log exactly its one GET, raise exactly its HTTP error (leaving the handle unfetched), and on success capture exactly the response it returns |
| Http.ReadToFile | e2fyi/utils/core/http.py:104-111 | one GET; on success the result is the response and a fresh open file holding the body of the handle's kind (bytes in binary mode, text otherwise) rewound to 0; the handle itself gains only the log entry |
| Http.Cleanup | e2fyi/utils/core/http.py:113-116 | the response is forgotten and the file closed; nothing else changes |
| Http.Read | e2fyi/utils/core/http.py:78-83 | while nothing is captured, exactly one GET; a failing status raises and assigns nothing; a success captures the response and reads from offset 0 of a new file holding the body, up to size (all when negative); once captured, a plain file read from the cursor with no request |
| Http.Iter | e2fyi/utils/core/http.py:118-131 | with a captured response, iterates over it (chunks in binary mode, lines in text mode) with no request; otherwise one GET whose response primes the handle with a rewound file holding the body |
| Http.Enter | e2fyi/utils/core/http.py:133-149 | "w": a fresh empty file, nothing fetched, response untouched; "a": fetches once when unfetched (closing the old file) and moves the cursor to the end; otherwise the cursor goes to 0 |
| Http.Exit | e2fyi/utils/core/http.py:151-161 | in "w"/"a" mode exactly one POST of the whole file from offset 0, declaring the cursor at exit as length, result by raise_for_status; read mode posts nothing; in every case the file ends closed and the response forgotten |
| HttpProperties.CapturedReadsIssueNoRequest | e2fyi/utils/core/http.py:78-83 | once a response is captured, any number of reads issue no request and keep the response |
| HttpProperties.ReadsFetchOnce | e2fyi/utils/core/http.py:78-83 | any number of reads on an unfetched handle whose first GET succeeds issue exactly one GET and capture its response |
| HttpProperties.FailedFetchIsRetried | e2fyi/utils/core/http.py:78-92 | a failed GET leaves the file untouched and the handle unfetched, so the next read GETs again and captures a good response |
| HttpProperties.WriteScopeUploadsWrittenData | e2fyi/utils/core/http.py:133-161 | entering "w", writing d and leaving POSTs exactly d declaring its length, issues no GET and ends closed and unfetched |
| HttpProperties.AppendScopeUploadsBodyThenWritten | e2fyi/utils/core/http.py:139-161 | entering "a" GETs the body; leaving after writing d POSTs body followed by d with their combined length |
| HttpProperties.ReadInsideWriteScopeDiscardsWrites | e2fyi/utils/core/http.py:78-83 | a read inside a "w" scope GETs the URL and replaces the written data with the response body |
| HttpProperties.IterThenReadSharesResponse | e2fyi/utils/core/http.py:118-131 | after iterating, a read issues no request and returns the whole body of the response iterated |
| HttpProperties.ReadAfterExitFetchesAgain | e2fyi/utils/core/http.py:151-161 | after leaving a scope, a read issues a new GET and returns the new body |
| HttpProperties.FreshStreamIsEmpty | e2fyi/utils/core/http.py:18-52 | a new handle owns an empty open file: is_empty is true and leaves the handle unchanged |
| S3Streams.FromIoKeepsCursor | e2fyi/utils/aws/s3_stream.py:303-320 | from_io does not rewind: a read of the new stream returns what a read of the wrapped stream from its cursor would, and get_value still returns all of it |
| S3Streams.FromFileReadsWholeFile | e2fyi/utils/aws/s3_stream.py:178-190 | reading a stream made from a file returns all of the file's bytes; it is typed with the given content type, or with the inferred one when none is given |
| S3Streams.FromPandas | e2fyi/utils/aws/s3_stream.py:257-300 | a text stream rewound to 0 holding the frame's CSV, typed "application/csv", exactly when output_as is "csv", and its JSON, typed "application/json", otherwise |
| S3Streams.TextContentType | e2fyi/utils/aws/s3_stream.py:228-232 | scalar text is typed "text/plain" exactly when the given type is the octet-stream default (or already text/plain); any other type, "" included, is kept |
| S3Streams.FromObject | e2fyi/utils/aws/s3_stream.py:193-254 | str/int/float/bool: an existing file path opens the file, other text becomes a text stream; bytes keep the given type; dicts, lists and models that JSON-encode become JSON whatever type was given; otherwise pickled with the given type, the cursor left at the end of the pickle |
| S3Streams.FromAny | e2fyi/utils/aws/s3_stream.py:153-175 | DataFrame/Series go to from_pandas, objects with read to from_io with the type as given, everything else to from_object |
| S3Streams.StreamSeek | e2fyi/utils/aws/s3_stream.py:123-140 | seek is exactly the wrapped stream's seek: same success condition and error, the stream replaced by the sought one, the type kept |
| S3Streams.StreamRead | e2fyi/utils/aws/s3_stream.py:119-121 | read is exactly the wrapped stream's read: it succeeds exactly while open, returns the data that read returns and keeps the cursor it leaves; the type is kept |
| S3Streams.FromAnyContent | e2fyi/utils/aws/s3_stream.py:153-300 | what get_value returns from a converted object: the frame's CSV or JSON, an open readable's content, a scalar's text (or the file's bytes when it names a file), bytes as given, the JSON of an encodable dict or list, otherwise the pickle |
| S3Streams.PickledStreamReadsEmptyUntilRewound | e2fyi/utils/aws/s3_stream.py:252-254 | a pickled object's stream is left at its end: read before a seek returns no bytes, get_value returns the pickle |
| S3Streams.StreamClose | e2fyi/utils/aws/s3_stream.py:142-145 | close closes the wrapped stream and keeps the type and content |
| S3Streams.GetValue | e2fyi/utils/aws/s3_stream.py:147-150 | the whole content wherever the cursor was, the cursor ending at the end; a closed stream raises and nothing changes |
| S3Streams.Truthy | e2fyi/utils/aws/s3_resource.py:170 | testing a stream argument for truth raises exactly for a DataFrame or Series |
| S3Resources.DirectoryMovesIntoPrefix | e2fyi/utils/aws/s3_resource.py:163-168 | for a relative path without "//" that contains "/", the filename becomes the part after the last "/", and the directory part is joined onto the prefix with a trailing "/"; prefix + filename is unchanged when the prefix is "" or ends in "/" |
| S3Resources.EmptyNameGetsRandomName | e2fyi/utils/aws/s3_resource.py:163 | an empty filename becomes the random uuid hex name and the prefix is kept |
| S3Resources.TrailingSlashEmptiesFilename | e2fyi/utils/aws/s3_resource.py:163-168 | "dir/" gives filename "" and prefix "dir/" |
| S3Resources.New | e2fyi/utils/aws/s3_resource.py:127-185 | construction fails exactly when the stream argument is a DataFrame or Series; names are normalised; kwargs become the extra args; a given S3Stream is kept and retyped by a given content type; a truthy payload becomes the stream `from_any` builds from it (CSV for frames), retyped the same way, and a falsy one leaves no stream |
| S3Resources.ContentType | e2fyi/utils/aws/s3_resource.py:187-192 | the stream's type when there is a stream, else the constructor's, else "application/octet-stream" |
| S3Resources.ContentTypePrecedence | e2fyi/utils/aws/s3_resource.py:170-192 | on a fresh resource a given content type wins; without one, a given stream's type; with neither, "application/octet-stream" |
| S3Resources.Key | e2fyi/utils/aws/s3_resource.py:194-199 | the key exists exactly when the filename is non-empty, and is prefix + filename; otherwise ValueError("filename cannot be empty.") |
| S3Resources.Uri | e2fyi/utils/aws/s3_resource.py:201-206 | the URI exists exactly when bucket name and filename are non-empty and is protocol + bucket + "/" + key; the bucket check comes first |
| S3Resources.FullPathExample | e2fyi/utils/aws/s3_resource_test.py:46-58 | "subprefix/filename.ext" under prefix "prefix/" in bucket "bucketname" has key "prefix/subprefix/filename.ext" and the matching URI |
| S3Resources.GetStream | e2fyi/utils/aws/s3_resource.py:208-227 | a stream is returned as it is; with neither stream nor bucket, RuntimeError; otherwise one download of the key is logged and, when it delivers, the bytes become a cached stream at 0 typed with the constructor's type |
| S3Resources.StreamDownloadsAtMostOnce | e2fyi/utils/aws/s3_resource.py:208-225 | asking for the stream again after a success makes no call and returns the same stream |
| S3Resources.DownloadedStreamTakesGivenType | e2fyi/utils/aws/s3_resource.py:187-192 | after a download with no constructor content type, the resource reports "" as its content type |
| S3Resources.ResourceRead | e2fyi/utils/aws/s3_resource.py:229-231 | read fetches the stream when needed, then returns exactly what the stream's read returns and keeps the stream it leaves; it fails exactly when fetching fails or the stream is closed, and a failed read changes nothing beyond the fetch |
| S3Resources.ResourceSeek | e2fyi/utils/aws/s3_resource.py:233-250 | seek fetches the stream when needed; on success the resource is the fetched one holding the sought stream and the result is its new cursor (the offset itself for whence 0); a failed seek leaves the fetched resource unchanged and returns the seek's error; it succeeds exactly when the fetch and the stream's seek do |
| S3Resources.ResourceClose | e2fyi/utils/aws/s3_resource.py:252-255 | close fetches the stream when needed; on success every field of the fetched resource is kept except the stream, which is the same stream closed; it fails exactly when fetching fails |
| S3Resources.GetValue | e2fyi/utils/aws/s3_resource.py:257-260 | the whole content of the (possibly just downloaded) stream; on success the resource is the fetched one whose stream is rewound and read to its end, with the same calls as fetching it; it fails when fetching fails or the stream is closed |
| S3Resources.CallConstructor | e2fyi/utils/aws/s3_resource.py:291-298 | with unpack, an object is passed as keywords and an array positionally; anything else, or without unpack, as one argument |
| S3Resources.Load | e2fyi/utils/aws/s3_resource.py:283-298 | a content type other than exactly "application/json" raises TypeError before the stream is touched; otherwise the resource is left as `getvalue` leaves it (the download cached, the stream read to its end), and success comes exactly when the whole content is read and parses, giving the document or the constructor's result |
| S3Resources.ExtraArgs | e2fyi/utils/aws/s3_resource.py:343 | the upload arguments hold ContentType, the extra args and the kwargs, later ones winning |
| S3Resources.Save | e2fyi/utils/aws/s3_resource.py:325-346 | with no bucket from argument or resource, ValueError; on success exactly one upload of the whole content (UTF-8 of text, or bytes) to prefix + filename with the merged args; the content is unchanged and the cursor back at 0; every field other than the stream and the log is that of the fetched resource; with an open stream, a filename and a bucket, success exactly when the upload succeeds |
| S3Resources.SavedContentIsReadBack | e2fyi/utils/aws/s3_resource.py:325-346 | after a successful save, get_value returns exactly what was uploaded with no further call |
| S3Resources.LoadReadsBackEncodedObject | e2fyi/utils/aws/s3_resource.py:283-298 | a resource built over a non-empty JSON-encodable dict or list, with no other type given, is typed "application/json" and load returns the parse of that JSON (or the constructor called on it) without any download |
| S3Resources.StrIsFullPath | e2fyi/utils/aws/s3_resource.py:348-353 | str is protocol + bucket + "/" + prefix + filename when there is a bucket, prefix + filename without one, and ValueError("filename cannot be empty.") for an empty filename |
| S3Resources.Str | e2fyi/utils/aws/s3_resource.py:348-353 | the URI when there is one, else the key; it raises exactly when the filename is empty |
| S3Buckets.NoopRuleKeepsNames | e2fyi/utils/aws/s3.py:44-157 | with the default rule the bucket prefix is "", a key is the filename and a URI is protocol + name + "/" + filename |
| S3Buckets.SplitListedKey | e2fyi/utils/aws/s3.py:209-216 | a listed key is cut at its last "/": prefix + filename is the key, the filename has no "/", and the prefix is "" exactly when the key has no "/" and otherwise ends in "/" |
| S3Buckets.ToResource | e2fyi/utils/aws/s3.py:218-225 | a listed item becomes a resource in this bucket typed "application/octet-stream" with no calls made |
| S3Buckets.ListedKeyRoundTrip | e2fyi/utils/aws/s3.py:206-225 | a listed key not ending in "/" is the key of its resource, and its URI is "s3a://" + bucket + "/" + key |
| S3Buckets.ProjectListingUsesBucketPrefix | e2fyi/utils/aws/s3.py:201-202 | listing within the project lists under the bucket's prefix: with a rule that prepends it, the listing prefix is the bucket prefix followed by the given one, and with the default rule it is the given one; outside the project it is the given one |
| S3Buckets.ListKeys | e2fyi/utils/aws/s3.py:227-252 | the keys yielded are the first max_objects keys of the pages up to the first untruncated one (all of them when max_objects is not positive); every request asks for 1000 keys under the listing prefix, the first without token and each later one with the previous page's token; without a limit one request per page |
| S3Buckets.List | e2fyi/utils/aws/s3.py:159-252 | the i-th resource listed is the resource of the i-th listed key, and there are exactly as many as ListKeys yields |
| S3Buckets.CreatedType | e2fyi/utils/aws/s3.py:300-314 | the given type, else the converted object's, else "application/octet-stream"; never "" |
| S3Buckets.CreateResource | e2fyi/utils/aws/s3.py:254-314 | a keyword the method already passes to S3Resource is a TypeError, and only then does creation fail; the resource lives in this bucket under its prefix, holds the converted object, has the settled content type as its given type, no calls yet, and exactly `{"Metadata": metadata, **kwargs}` without stats as extra args |
| S3Buckets.CreatedResourceMatchesBucketKey | e2fyi/utils/aws/s3.py:118-157 | when the rule prepends the bucket prefix, a resource created from a plain filename has exactly create_resource_key as its key and create_resource_uri as its URI and str (the key when the bucket name is empty) |
| S3Buckets.Upload | e2fyi/utils/aws/s3.py:316-331 | upload always raises DeprecationWarning |
| Maybes.OkIgnoresTheValue | e2fyi/utils/core/maybe.py:48-55 | is_ok depends on the exception alone; a falsy value without exception is ok, yet with_default returns the default for it |
| Maybes.WithDefault | e2fyi/utils/core/maybe.py:53-55 | the value when ok and truthy; the default when an exception is recorded or the value is falsy |
| Maybes.WithDefaultIsTruthy | e2fyi/utils/core/maybe.py:53-55 | a truthy default makes with_default truthy whatever the Maybe |
| Maybes.Str | e2fyi/utils/core/maybe.py:57-63 | a non-empty list of strings is joined with newlines (TypeError exactly when an item is not a string); a non-empty dict is dumped as JSON, failing exactly when the dump fails; a non-empty tuple is the %-argument list, so one item prints as that item and more raise TypeError; otherwise the value when truthy, else the exception, else "None" |
| Maybes.TuplesFormatAsArguments | e2fyi/utils/core/maybe.py:63 | a one-item tuple prints as its item whatever the exception, and a tuple of two items raises TypeError |
| Maybes.StrOfLinesSplitsBack | e2fyi/utils/core/maybe.py:59-60 | the text of a non-empty list of single-line strings splits on newlines back into those strings |
| Maybes.FalsyValuePrintsNone | e2fyi/utils/core/maybe.py:63 | Maybe(0), Maybe("") and Maybe() all print "None" |
| Maybes.OkValueIsKept | e2fyi/utils/core/maybe.py:48-55 | a truthy value without exception is ok and with_default returns it |
| Maybes.FailureUsesDefault | e2fyi/utils/core/maybe.py:48-55 | with an exception the Maybe is not ok and with_default returns the default |

## Left out

- Network, S3 and file system: these are parameters (the reply, the POST status, the downloaded bytes, the upload outcome, the listing pages, the files with their inferred MIME types). Connection errors other than an HTTP status, and boto3 errors other than "the download or the upload failed", are not modelled.
- `SpooledTemporaryFile` spilling to disk, `buffering`, `encoding` and `newline` translation: the temporary file is an in-memory file that never rolls over. Text positions are character offsets.
- `decode_unicode`, `delimiter`, `chunk_size` and `**kwargs` of `HttpStream`: these are only forwarded to `requests`. Iteration is modelled as "the chunks or lines of this response", not the chunking itself.
- `StreamingIterator` and the POST's chunked reading: the POST carries the file's whole content and the declared length.
- `_infer_mime` and libmagic: the inferred type is part of the file-system parameter.
- `json.dumps`, `json.loads`, `joblib.dump`, `DataFrame.to_csv`/`to_json`, `BaseModel.dict()` and UTF-8 encoding: these are parameters or opaque values. `**kwargs` forwarded to them (JSON options, `pandas_kwargs` other than `output_as`) are not modelled.
- Object identity: streams and files are values. The source keeps the caller's `S3Stream` object and sets its content type in place (e2fyi/utils/aws/s3_resource.py:170-181), and `from_io` wraps the caller's file object (e2fyi/utils/aws/s3_stream.py:320), so the caller sees later reads, seeks and the retyping through its own reference. The model returns the retyped stream in the resource and does not model that sharing.
- Serialiser failures: only the `TypeError` of `json.dumps` is modelled, as the codec giving no JSON, which falls back to pickling (e2fyi/utils/aws/s3_stream.py:243-254). A `ValueError` from `json.dumps` (a circular reference, say) and any failure of `joblib.dump` propagate out of `from_object`, `from_any`, the `S3Resource` constructor and `create_resource` in the source; in the model these conversions always succeed.
- `s3client`, `last_resp` and `stats` of `S3Resource`: these hold clients and replies that the modelled logic never inspects.
- `S3Bucket.__str__`, `S3Resource`'s class-level constants, and `core/results.py`: these are outside the modelled core.
- `list` is a generator. The model computes the keys it yields when consumed to the end, and the requests it makes. Each page's resources are built before the `max_objects` checks, so their random names are drawn then; the model numbers the random names by listing position instead.
- `S3Buckets.ListKeys`: when `max_objects` is positive the number of requests is bounded by the pages up to the first untruncated one, but not pinned to the page at which the limit is reached.
- `S3Resources.Load`: the constructor's result is represented by the arguments it is called with. What a constructor does with them is not modelled.
- `S3Buckets.CreateResource`: requires that `kwargs` does not repeat the method's own parameter names, because Python binds those to the parameters and they can never reach `**kwargs`.
- `Maybes.Str`: a dict value is identified by its size only, and `json.dumps` is a parameter that may fail (its TypeError or ValueError is the result). Python's `str` of a list, dict or tuple is a parameter too; it is used only for the single item of a one-item tuple. A value of any other type prints through its given `str`.
- `Http.Read`: the size is an integer. `read(None)` (e2fyi/utils/core/http.py:78 allows `Optional[int]`) reads everything in Python's BytesIO and StringIO, as a negative size does, so a caller passing None is modelled by passing -1.
- `HttpStream.closed` and `_tempfile`: these are the plain accessors `Closed` and `TempFile`, with no contract of their own. `Http.Read`, `Http.Enter` and the `HttpProperties` lemmas state what they contribute.

=== FILE: file_buffer.dfy ===
/** The temporary file behind an HTTP stream (a `SpooledTemporaryFile` opened
    "w+b" or "w+") and behind an S3 stream (an `io.BytesIO`/`io.StringIO`):
    one sequence, a cursor and a closed flag, with Python's seek, tell, read,
    write, flush and close rules. A spooled file with `max_size` 0 never
    rolls over to disk, so in-memory `BytesIO` semantics are the whole story. */
module FileBuffer {
  import opened Wrappers
  import PyStr

  type byte = x: int | 0 <= x < 256

  /** A value read from or written to a file: `bytes` for a binary file,
      `str` for a text file. */
  datatype Data = Bytes(bytes: seq<byte>) | Text(text: string) {

    function Length(): nat {
      if Bytes? then |bytes| else |text|
    }

    /** `self[i:j]`, of the same kind. */
    function Slice(i: nat, j: nat): (d: Data)
      requires i <= j <= Length()
      ensures d.Bytes? == Bytes? && d.Length() == j - i
      ensures i == 0 && j == Length() ==> d == this
    {
      if Bytes? then Bytes(bytes[i..j]) else Text(text[i..j])
    }

    /** The empty value of the same kind (`b""` or `""`). */
    function EmptyLike(): (d: Data)
      ensures d.Bytes? == Bytes? && d.Length() == 0
      ensures Length() == 0 ==> d == this
    {
      if Bytes? then Bytes([]) else Text([])
    }

    /** `self + other` for two values of the same kind. */
    function Concat(other: Data): (d: Data)
      requires Bytes? == other.Bytes?
      ensures d.Bytes? == Bytes? && d.Length() == Length() + other.Length()
    {
      if Bytes? then Bytes(bytes + other.bytes) else Text(text + other.text)
    }
  }

  /** An open or closed file: its content, the cursor (which may lie past
      the end after a seek in a binary file) and whether `close` was called. */
  datatype Buffer = Buffer(content: Data, pos: nat, closed: bool) {
    predicate Binary() {
      content.Bytes?
    }
  }

  const ClosedFileMessage := "I/O operation on closed file."

  /** A freshly created, empty, open file. */
  function Empty(binary: bool): Buffer {
    Buffer(if binary then Bytes([]) else Text([]), 0, false)
  }

  function Max0(x: int): nat {
    if x < 0 then 0 else x
  }

  /** Writes `x` over `c` starting at `pos`, padding with `pad` when `pos` is
      past the end, as a file write does; an empty write changes nothing. */
  function Overwrite<T>(c: seq<T>, pos: nat, x: seq<T>, pad: T): (r: seq<T>)
    ensures |x| == 0 ==> r == c
    ensures |x| > 0 ==> |r| == if pos + |x| > |c| then pos + |x| else |c|
    ensures |x| > 0 ==> forall i :: 0 <= i < |x| ==> r[pos + i] == x[i]
    ensures |x| > 0 ==> forall i :: 0 <= i < pos && i < |c| ==> r[i] == c[i]
    ensures |x| > 0 ==> forall i :: |c| <= i < pos ==> r[i] == pad
    ensures |x| > 0 ==> forall i :: pos + |x| <= i < |c| ==> r[i] == c[i]
    ensures pos <= |c| <= pos + |x| ==> r == c[..pos] + x
  {
    if |x| == 0 then c
    else
      var keep := if pos <= |c| then c[..pos] else c;
      var gap := seq(pos - |keep|, _ => pad);
      keep + gap + x + PyStr.Drop(c, pos + |x|)
  }

  /** `f.tell()`. */
  function Tell(b: Buffer): (r: Result<nat>)
    ensures r.Ok? <==> !b.closed
    ensures r.Ok? ==> r.value == b.pos
  {
    if b.closed then Err(ValueError(ClosedFileMessage)) else Ok(b.pos)
  }

  /** `f.seek(offset, whence)`. A binary file clamps relative seeks at 0; a
      text file refuses non-zero relative offsets; an absolute seek to a
      negative offset and an unknown whence are errors. */
  function Seek(b: Buffer, offset: int, whence: int): (r: Result<Buffer>)
    ensures r.Ok? <==>
      && !b.closed
      && (whence == 0 || whence == 1 || whence == 2)
      && (whence == 0 ==> offset >= 0)
      && (whence != 0 && !b.Binary() ==> offset == 0)
    ensures r.Ok? ==> r.value.content == b.content && !r.value.closed
    ensures r.Ok? && whence == 0 ==> r.value.pos == offset
    ensures r.Ok? && whence == 2 && offset == 0 ==> r.value.pos == b.content.Length()
    ensures r.Ok? && whence == 1 && offset == 0 ==> r.value == b
  {
    if b.closed then Err(ValueError(ClosedFileMessage))
    else if whence == 0 then
      if offset < 0 then Err(ValueError("negative seek position"))
      else Ok(b.(pos := offset))
    else if whence == 1 || whence == 2 then
      if !b.Binary() && offset != 0 then
        Err(UnsupportedOperation(if whence == 1 then "can't do nonzero cur-relative seeks"
                                 else "can't do nonzero end-relative seeks"))
      else
        var base := if whence == 1 then b.pos else b.content.Length();
        Ok(b.(pos := Max0(base + offset)))
    else Err(ValueError("invalid whence"))
  }

  /** `f.read(size)`: a negative size reads to the end; a cursor at or past
      the end reads nothing and stays put. */
  function Read(b: Buffer, size: int): (r: Result<(Buffer, Data)>)
    ensures r.Ok? <==> !b.closed
    ensures r.Ok? ==> r.value.0.content == b.content && !r.value.0.closed
    ensures r.Ok? && b.pos >= b.content.Length() ==>
      r.value.0.pos == b.pos && r.value.1 == b.content.EmptyLike()
    ensures r.Ok? && b.pos < b.content.Length() ==>
      var stop := r.value.0.pos;
      && b.pos <= stop <= b.content.Length()
      && (size < 0 ==> stop == b.content.Length())
      && (size >= 0 ==> stop == if b.pos + size < b.content.Length() then b.pos + size else b.content.Length())
      && r.value.1 == b.content.Slice(b.pos, stop)
  {
    if b.closed then Err(ValueError(ClosedFileMessage))
    else
      var n := b.content.Length();
      if b.pos >= n then Ok((b, b.content.EmptyLike()))
      else
        var stop := if size < 0 || b.pos + size > n then n else b.pos + size;
        Ok((b.(pos := stop), b.content.Slice(b.pos, stop)))
  }

  /** `f.write(d)`: overwrites from the cursor, moves the cursor past the
      written data and returns its length; `bytes` into a text file or `str`
      into a binary file is a TypeError. */
  function Write(b: Buffer, d: Data): (r: Result<(Buffer, nat)>)
    ensures r.Ok? <==> !b.closed && d.Bytes? == b.Binary()
    ensures r.Ok? ==>
      var b' := r.value.0;
      && r.value.1 == d.Length()
      && !b'.closed
      && b'.pos == b.pos + d.Length()
      && b'.Binary() == b.Binary()
      && (d.Length() == 0 ==> b' == b)
      && (d.Length() > 0 ==> b'.content.Length() == if b'.pos > b.content.Length() then b'.pos else b.content.Length())
      && (d.Length() > 0 ==> b'.content.Slice(b.pos, b'.pos) == d)
      && (b.pos <= b.content.Length() ==> b'.content.Slice(0, b.pos) == b.content.Slice(0, b.pos))
      && (b.pos <= b.content.Length() <= b'.pos ==> b'.content == b.content.Slice(0, b.pos).Concat(d))
  {
    if b.closed then Err(ValueError(ClosedFileMessage))
    else
      match (b.content, d)
      case (Bytes(c), Bytes(x)) =>
        Ok((b.(content := Bytes(Overwrite(c, b.pos, x, 0)), pos := b.pos + |x|), |x|))
      case (Text(c), Text(x)) =>
        Ok((b.(content := Text(Overwrite(c, b.pos, x, '\0')), pos := b.pos + |x|), |x|))
      case (Bytes(_), Text(_)) => Result<(Buffer, nat)>.Err(TypeError("a bytes-like object is required, not 'str'"))
      case (Text(_), Bytes(_)) => Result<(Buffer, nat)>.Err(TypeError("write() argument must be str, not bytes"))
  }

  /** `f.flush()`: nothing to do for an in-memory file, an error once closed. */
  function Flush(b: Buffer): (r: Result<Buffer>)
    ensures r.Ok? <==> !b.closed
    ensures r.Ok? ==> r.value == b
  {
    if b.closed then Err(ValueError(ClosedFileMessage)) else Ok(b)
  }

  /** `f.close()`: idempotent; the content is no longer reachable. */
  function Close(b: Buffer): (r: Buffer)
    ensures r.closed && r.content == b.content && r.pos == b.pos
  {
    b.(closed := true)
  }

  /** Writing into an empty file, rewinding and reading everything gives
      back exactly what was written. */
  lemma WriteSeekReadRoundTrip(binary: bool, d: Data)
    requires d.Bytes? == binary
    ensures
      var w := Write(Empty(binary), d);
      && w.Ok?
      && Seek(w.value.0, 0, 0).Ok?
      && Read(Seek(w.value.0, 0, 0).value, -1).Ok?
      && Read(Seek(w.value.0, 0, 0).value, -1).value.1 == d
  {
    var w := Write(Empty(binary), d);
    var b := w.value.0;
    if d.Length() == 0 {
      assert d == b.content.EmptyLike();
    } else {
      assert b.content.Length() == d.Length();
      assert b.content.Slice(0, d.Length()) == d;
      assert b.content == b.content.Slice(0, b.content.Length());
    }
  }
}

=== FILE: http_properties.dfy ===
/** Properties of `HttpStream` that relate several calls: reads fetch at
    most once, failed fetches are retried, and the scoped forms upload what
    was written. */
module HttpProperties {
  import opened Wrappers
  import opened FileBuffer
  import opened Http

  /** The handle after a series of `read(sizes[k])` calls, the k-th of which
      would receive `replies[k]` if it issued a GET. */
  function ReadMany(s: Stream, sizes: seq<int>, replies: seq<Response>): Stream
    requires |sizes| == |replies|
    decreases |sizes|
  {
    if |sizes| == 0 then s
    else ReadMany(Http.Read(s, sizes[0], replies[0]).stream, sizes[1..], replies[1..])
  }

  /** Every fetch goes through `_read2state`: on an unfetched handle, `read`
      and `__iter__` log exactly the request it logs, raise exactly what it
      raises, and on success capture exactly the response it returns. */
  lemma FetchesGoThroughGetRequest(s: Stream, size: int, reply: Response)
    requires s.state.None?
    ensures
      var g := GetRequest(s, reply);
      var read := Http.Read(s, size, reply);
      var iter := Iter(s, reply);
      && read.stream.log == g.stream.log && iter.stream.log == g.stream.log
      && (g.result.Err? ==> read.result == Err(g.result.error) && iter.result == Err(g.result.error))
      && (g.result.Err? ==> read.stream.state.None? && iter.stream.state.None?)
      && (g.result.Ok? ==> read.stream.state == Some(g.result.value) && iter.stream.state == Some(g.result.value))
  {
  }

  /** Once a response is captured, no number of reads issues a request or
      drops the response. */
  lemma {:induction false} CapturedReadsIssueNoRequest(s: Stream, sizes: seq<int>, replies: seq<Response>)
    requires |sizes| == |replies|
    requires s.state.Some?
    ensures ReadMany(s, sizes, replies).log == s.log
    ensures ReadMany(s, sizes, replies).state == s.state
    decreases |sizes|
  {
    if |sizes| > 0 {
      CapturedReadsIssueNoRequest(Http.Read(s, sizes[0], replies[0]).stream, sizes[1..], replies[1..]);
    }
  }

  /** Any number of reads on a handle whose first GET succeeds issue exactly
      one request, and capture that first response. */
  lemma ReadsFetchOnce(s: Stream, sizes: seq<int>, replies: seq<Response>)
    requires |sizes| == |replies| > 0
    requires s.state.None? && !RaisesForStatus(replies[0].status)
    ensures ReadMany(s, sizes, replies).log == s.log + [Get(s.uri)]
    ensures ReadMany(s, sizes, replies).state == Some(replies[0])
  {
    CapturedReadsIssueNoRequest(Http.Read(s, sizes[0], replies[0]).stream, sizes[1..], replies[1..]);
  }

  /** A GET that fails leaves the handle unfetched, so the next read issues a
      new GET, which may succeed and is then captured. */
  lemma FailedFetchIsRetried(s: Stream, size: int, bad: Response, good: Response)
    requires s.state.None?
    requires RaisesForStatus(bad.status) && !RaisesForStatus(good.status)
    ensures
      var first := Http.Read(s, size, bad);
      var second := Http.Read(first.stream, size, good);
      && first.result == Err(HttpError(bad.status))
      && first.stream.file == s.file
      && second.stream.log == s.log + [Get(s.uri), Get(s.uri)]
      && second.stream.state == Some(good)
  {
  }

  /** Writing a value inside a "w" scope and leaving it POSTs exactly that
      value, declaring its length, with no GET; the handle ends closed. */
  lemma WriteScopeUploadsWrittenData(uri: string, mode: string, d: Data, unused: Response, postStatus: int)
    requires 'w' in mode && d.Bytes? == ('b' in mode)
    ensures
      var entered := Enter(Init(uri, mode), unused);
      var written := Http.Write(entered.stream, d);
      var exited := Exit(written.stream, postStatus);
      && entered.result.Ok?
      && written.result == Ok(d.Length())
      && exited.stream.log == [Post(uri, d, d.Length())]
      && exited.stream.file.closed && exited.stream.state.None?
      && (exited.result.Ok? <==> !RaisesForStatus(postStatus))
  {
    var entered := Enter(Init(uri, mode), unused);
    assert entered.stream.file == Empty('b' in mode);
    var written := Http.Write(entered.stream, d);
    assert written.stream.file.content == d.EmptyLike().Concat(d);
  }

  /** In an "a" scope (without "w") the handle fetches the body, appends
      what is written, and on exit POSTs the body followed by the written
      value, declaring their combined length. */
  lemma AppendScopeUploadsBodyThenWritten(uri: string, mode: string, reply: Response, d: Data, postStatus: int)
    requires 'a' in mode && 'w' !in mode && d.Bytes? == ('b' in mode)
    requires !RaisesForStatus(reply.status)
    ensures
      var body := Body(reply, 'b' in mode);
      var entered := Enter(Init(uri, mode), reply);
      var written := Http.Write(entered.stream, d);
      var exited := Exit(written.stream, postStatus);
      && entered.result.Ok?
      && written.result.Ok?
      && exited.stream.log == [Get(uri), Post(uri, body.Concat(d), body.Length() + d.Length())]
  {
    var body := Body(reply, 'b' in mode);
    var entered := Enter(Init(uri, mode), reply);
    assert entered.stream.file == Buffer(body, body.Length(), false);
    var written := Http.Write(entered.stream, d);
    assert written.stream.file.content == body.Slice(0, body.Length()).Concat(d);
  }

  /** Entering a "w" scope does not mark the handle as fetched, so a read
      inside the scope GETs the URL and replaces what was written with the
      response body. */
  lemma ReadInsideWriteScopeDiscardsWrites(uri: string, mode: string, d: Data, unused: Response, reply: Response)
    requires 'w' in mode && d.Bytes? == ('b' in mode)
    requires !RaisesForStatus(reply.status)
    ensures
      var entered := Enter(Init(uri, mode), unused);
      var written := Http.Write(entered.stream, d);
      var read := Http.Read(written.stream, -1, reply);
      && written.result.Ok?
      && read.stream.log == [Get(uri)]
      && read.stream.file.content == Body(reply, 'b' in mode)
      && read.result == Ok(Body(reply, 'b' in mode))
  {
  }

  /** Iterating primes the handle with the response, so a later read issues
      no request and sees the whole body. */
  lemma IterThenReadSharesResponse(s: Stream, reply: Response, other: Response)
    requires s.state.None? && !RaisesForStatus(reply.status)
    ensures
      var it := Iter(s, reply);
      var read := Http.Read(it.stream, -1, other);
      && read.stream.log == s.log + [Get(s.uri)]
      && read.result == Ok(Body(reply, s.mode.binary))
  {
  }

  /** Leaving a scope forgets the response, so a read afterwards GETs the
      URL again into a fresh file. */
  lemma ReadAfterExitFetchesAgain(s: Stream, postStatus: int, reply: Response)
    requires !RaisesForStatus(reply.status)
    ensures
      var exited := Exit(s, postStatus);
      var read := Http.Read(exited.stream, -1, reply);
      && read.stream.log == exited.stream.log + [Get(s.uri)]
      && read.result == Ok(Body(reply, s.mode.binary))
  {
  }

  /** A new handle is empty and `is_empty` leaves it as it was. */
  lemma FreshStreamIsEmpty(uri: string, mode: string)
    ensures IsEmpty(Init(uri, mode)) == Step(Init(uri, mode), Ok(true))
  {
  }
}

=== FILE: http_stream.dfy ===
/** `HttpStream`: a file-like handle over a URL. The handle owns a temporary
    file, remembers the one successful GET response it fetched (`_state`),
    and derives three flags from its mode string. The network is an oracle:
    every operation that may issue a request takes the reply it would get as
    a parameter, and the handle keeps a log of the requests it issued. */
module Http {
  import opened Wrappers
  import opened FileBuffer

  /** The three substring tests the handle makes on its mode string. */
  datatype Mode = Mode(binary: bool, write: bool, append: bool)

  function ParseMode(mode: string): Mode {
    Mode('b' in mode, 'w' in mode, 'a' in mode)
  }

  /** What `requests.get` hands back: the status, the raw body and the body
      decoded as text. */
  datatype Response = Response(status: int, content: seq<byte>, text: string)

  /** `raise_for_status` raises for client (4xx) and server (5xx) errors. */
  predicate RaisesForStatus(status: int) {
    400 <= status < 600
  }

  /** The part of a response a file of the given kind receives. */
  function Body(resp: Response, binary: bool): Data {
    if binary then Bytes(resp.content) else Text(resp.text)
  }

  /** A request issued to the network: a GET of the URL, or a POST of a body
      with the length declared for it. */
  datatype Call = Get(uri: string) | Post(uri: string, body: Data, length: int)

  /** What iterating yields from: the response's chunks (`iter_content`) in
      binary mode, its lines (`iter_lines`) in text mode. */
  datatype Iteration = ContentChunks(response: Response) | ResponseLines(response: Response)

  /** The handle: URL, mode flags, temporary file, captured response and
      the requests issued so far. */
  datatype Stream = Stream(uri: string, mode: Mode, file: Buffer, state: Option<Response>, log: seq<Call>)

  /** The handle after an operation, and what the operation returned or raised. */
  datatype Step<T> = Step(stream: Stream, result: Result<T>)

  /** The URL and the mode of a handle never change. */
  predicate SameHandle(s: Stream, s': Stream) {
    s'.uri == s.uri && s'.mode == s.mode
  }

  /** `HttpStream(uri, mode)`. */
  function Init(uri: string, mode: string): Stream {
    var m := ParseMode(mode);
    Stream(uri, m, Empty(m.binary), None, [])
  }

  /** `_tempfile()`: a new empty file, binary iff "b" is in the mode. */
  function TempFile(s: Stream): Buffer {
    Empty(s.mode.binary)
  }

  /** `closed`. */
  function Closed(s: Stream): bool {
    s.file.closed
  }

  /** `seek(offset, whence)`, returning the new position. */
  function Seek(s: Stream, offset: int, whence: int): (r: Step<nat>)
    ensures r.stream == s.(file := r.stream.file)
    ensures r.result.Ok? <==> FileBuffer.Seek(s.file, offset, whence).Ok?
    ensures r.result.Ok? ==>
      r.stream.file == FileBuffer.Seek(s.file, offset, whence).value && r.result.value == r.stream.file.pos
    ensures r.result.Err? ==> r.stream == s
  {
    match FileBuffer.Seek(s.file, offset, whence)
    case Ok(f) => Step(s.(file := f), Ok(f.pos))
    case Err(e) => Step(s, Err(e))
  }

  /** `seek` where only success matters. */
  function SeekTo(s: Stream, offset: int, whence: int): Step<()> {
    var k := Seek(s, offset, whence);
    Step(k.stream, match k.result case Ok(_) => Ok(()) case Err(e) => Err(e))
  }

  /** `tell()`. */
  function Tell(s: Stream): (r: Result<nat>)
    ensures r.Ok? <==> !s.file.closed
    ensures r.Ok? ==> r.value == s.file.pos
  {
    FileBuffer.Tell(s.file)
  }

  /** `close()`. */
  function Close(s: Stream): (r: Stream)
    ensures r == s.(file := r.file)
    ensures r.file.closed && r.file.content == s.file.content && r.file.pos == s.file.pos
  {
    s.(file := FileBuffer.Close(s.file))
  }

  /** `flush()`: nothing to write out for an in-memory file; an error once
      the file is closed. */
  function Flush(s: Stream): (r: Step<()>)
    ensures r.stream == s
    ensures r.result.Ok? <==> !s.file.closed
  {
    match FileBuffer.Flush(s.file)
    case Ok(_) => Step(s, Ok(()))
    case Err(e) => Step(s, Err(e))
  }

  /** `write(data)`: a plain file write; no request is issued. */
  function Write(s: Stream, d: Data): (r: Step<nat>)
    ensures r.stream == s.(file := r.stream.file)
    ensures r.result.Ok? <==> FileBuffer.Write(s.file, d).Ok?
    ensures r.result.Ok? ==>
      r.stream.file == FileBuffer.Write(s.file, d).value.0 && r.result.value == d.Length()
    ensures r.result.Err? ==> r.stream == s
  {
    match FileBuffer.Write(s.file, d)
    case Ok((f, n)) => Step(s.(file := f), Ok(n))
    case Err(e) => Step(s, Err(e))
  }

  /** `is_empty()`: remembers the cursor, seeks to the end, compares the
      position with 0 and seeks back. */
  function IsEmpty(s: Stream): (r: Step<bool>)
    ensures r.stream == s
    ensures r.result == if s.file.closed then Err(ValueError(ClosedFileMessage))
                        else Ok(s.file.content.Length() == 0)
  {
    match Tell(s)
    case Err(e) => Step(s, Err(e))
    case Ok(current) =>
      var atEnd := Seek(s, 0, 2);
      match atEnd.result
      case Err(e) => Step(atEnd.stream, Err(e))
      case Ok(_) =>
        match Tell(atEnd.stream)
        case Err(e) => Step(atEnd.stream, Err(e))
        case Ok(p) =>
          var back := Seek(atEnd.stream, current, 0);
          Step(back.stream, match back.result case Ok(_) => Ok(p == 0) case Err(e) => Err(e))
  }

  /** `_read2state`: one GET, then `raise_for_status`. */
  function GetRequest(s: Stream, reply: Response): Step<Response> {
    var s' := s.(log := s.log + [Get(s.uri)]);
    if RaisesForStatus(reply.status) then Step(s', Err(HttpError(reply.status))) else Step(s', Ok(reply))
  }

  /** `_state2fileobj`: writes the body of the kind the file takes (raw bytes
      for a binary file, decoded text otherwise) into the file. */
  function StateToFile(resp: Response, f: Buffer): Result<Buffer> {
    match FileBuffer.Write(f, Body(resp, f.Binary()))
    case Ok((f', _)) => Ok(f')
    case Err(e) => Err(e)
  }

  /** `_read2fileobj`: GET, fill the given file, rewind it. Nothing is
      assigned to the handle; only the request is logged. */
  function ReadToFile(s: Stream, f: Buffer, reply: Response): (r: Step<(Response, Buffer)>)
    requires f == TempFile(s)
    ensures r.stream == s.(log := s.log + [Get(s.uri)])
    ensures r.result.Ok? <==> !RaisesForStatus(reply.status)
    ensures r.result.Err? ==> r.result.error == HttpError(reply.status)
    ensures r.result.Ok? ==>
      r.result.value == (reply, Buffer(Body(reply, s.mode.binary), 0, false))
  {
    var g := GetRequest(s, reply);
    match g.result
    case Err(e) => Step(g.stream, Err(e))
    case Ok(resp) =>
      match StateToFile(resp, f)
      case Err(e) => Step(g.stream, Err(e))
      case Ok(filled) =>
        match FileBuffer.Seek(filled, 0, 0)
        case Err(e) => Step(g.stream, Err(e))
        case Ok(rewound) => Step(g.stream, Ok((resp, rewound)))
  }

  /** `_cleanup()`: forget the response and close the file. */
  function Cleanup(s: Stream): (r: Stream)
    ensures r.state.None? && r.file.closed
    ensures r == s.(state := None, file := r.file) && r.file.content == s.file.content
  {
    s.(state := None, file := FileBuffer.Close(s.file))
  }

  /** The file read at the end of `read`. */
  function ReadFile(s: Stream, size: int): Step<Data> {
    match FileBuffer.Read(s.file, size)
    case Ok((f, d)) => Step(s.(file := f), Ok(d))
    case Err(e) => Step(s, Err(e))
  }

  /** `read(size)`. While no response is captured it GETs the URL; a failed
      GET raises before anything is assigned. A successful one is captured
      and replaces the file with a fresh one holding the body, read from
      offset 0. Once a response is captured, `read` is a plain file read
      from the current cursor. */
  function Read(s: Stream, size: int, reply: Response): (r: Step<Data>)
    ensures SameHandle(s, r.stream)
    ensures s.state.Some? ==>
      && r.stream.log == s.log
      && r.stream.state == s.state
      && r.stream.file.content == s.file.content
      && (r.result.Ok? <==> !s.file.closed)
      && (r.result.Ok? ==> r == Step(s.(file := FileBuffer.Read(s.file, size).value.0),
                                     Ok(FileBuffer.Read(s.file, size).value.1)))
    ensures s.state.None? ==> r.stream.log == s.log + [Get(s.uri)]
    ensures s.state.None? && RaisesForStatus(reply.status) ==>
      r == Step(s.(log := s.log + [Get(s.uri)]), Err(HttpError(reply.status)))
    ensures s.state.None? && !RaisesForStatus(reply.status) ==>
      var body := Body(reply, s.mode.binary);
      && r.stream.state == Some(reply)
      && r.stream.file.content == body
      && !r.stream.file.closed
      && r.stream.file.pos <= body.Length()
      && (size < 0 ==> r.stream.file.pos == body.Length())
      && (size >= 0 ==> r.stream.file.pos == if size < body.Length() then size else body.Length())
      && r.result == Ok(body.Slice(0, r.stream.file.pos))
  {
    if s.state.None? then
      var g := GetRequest(s, reply);
      match g.result
      case Err(e) => Step(g.stream, Err(e))
      case Ok(resp) =>
        var captured := g.stream.(state := Some(resp));
        match StateToFile(resp, TempFile(captured))
        case Err(e) => Step(captured, Err(e))
        case Ok(filled) =>
          var rewound := SeekTo(captured.(file := filled), 0, 0);
          match rewound.result
          case Err(e) => Step(rewound.stream, Err(e))
          case Ok(_) => ReadFile(rewound.stream, size)
    else
      ReadFile(s, size)
  }

  /** `__iter__()`. While no response is captured it primes the handle the
      way `_read2fileobj` does (GET, fresh file holding the body, cursor 0);
      it then iterates over the captured response, so a handle that already
      fetched issues no new request. */
  function Iter(s: Stream, reply: Response): (r: Step<Iteration>)
    ensures SameHandle(s, r.stream)
    ensures s.state.Some? ==>
      r == Step(s, Ok(if s.mode.binary then ContentChunks(s.state.value) else ResponseLines(s.state.value)))
    ensures s.state.None? && RaisesForStatus(reply.status) ==>
      r == Step(s.(log := s.log + [Get(s.uri)]), Err(HttpError(reply.status)))
    ensures s.state.None? && !RaisesForStatus(reply.status) ==>
      && r.stream == s.(log := s.log + [Get(s.uri)], state := Some(reply),
                        file := Buffer(Body(reply, s.mode.binary), 0, false))
      && r.result == Ok(if s.mode.binary then ContentChunks(reply) else ResponseLines(reply))
  {
    if s.state.Some? then IterOver(s, s.state.value)
    else
      var g := ReadToFile(s, TempFile(s), reply);
      match g.result
      case Err(e) => Step(g.stream, Err(e))
      case Ok((resp, f)) => IterOver(g.stream.(state := Some(resp), file := f), resp)
  }

  /** The iterator `__iter__` returns over a captured response. */
  function IterOver(s: Stream, resp: Response): Step<Iteration> {
    Step(s, Ok(if s.mode.binary then ContentChunks(resp) else ResponseLines(resp)))
  }

  /** `__enter__()`. With "w" in the mode the file is replaced by an empty
      one, nothing is fetched and the captured response is left as it is.
      Otherwise, with "a", the handle fetches if it has not yet (closing the
      old file first) and moves the cursor to the end. In any other mode the
      cursor goes back to 0. */
  function Enter(s: Stream, reply: Response): (r: Step<()>)
    ensures SameHandle(s, r.stream)
    ensures s.mode.write ==>
      r == Step(s.(file := Empty(s.mode.binary)), Ok(()))
    ensures !s.mode.write && s.mode.append && s.state.None? ==>
      && r.stream.log == s.log + [Get(s.uri)]
      && (RaisesForStatus(reply.status) ==>
            && r.result == Err(HttpError(reply.status))
            && r.stream.state.None?
            && r.stream.file == FileBuffer.Close(s.file))
      && (!RaisesForStatus(reply.status) ==>
            && r.result.Ok?
            && r.stream.state == Some(reply)
            && r.stream.file == Buffer(Body(reply, s.mode.binary), Body(reply, s.mode.binary).Length(), false))
    ensures !s.mode.write && s.mode.append && s.state.Some? ==>
      && r.stream.log == s.log && r.stream.state == s.state
      && r.stream.file.content == s.file.content
      && (r.result.Ok? <==> !s.file.closed)
      && (r.result.Ok? ==> r.stream.file.pos == s.file.content.Length())
    ensures !s.mode.write && !s.mode.append ==>
      && r.stream.log == s.log && r.stream.state == s.state
      && r.stream.file.content == s.file.content
      && (r.result.Ok? <==> !s.file.closed)
      && (r.result.Ok? ==> r.stream.file.pos == 0)
  {
    if s.mode.write then
      Step(s.(file := TempFile(s)), Ok(()))
    else if s.mode.append then
      if s.state.None? then
        var s1 := Close(s);
        var g := ReadToFile(s1, TempFile(s1), reply);
        match g.result
        case Err(e) => Step(g.stream, Err(e))
        case Ok((resp, f)) => SeekTo(g.stream.(state := Some(resp), file := f), 0, 2)
      else SeekTo(s, 0, 2)
    else SeekTo(s, 0, 0)
  }

  /** The `try` block of `__exit__`: in "w" or "a" mode, take `tell()` as the
      declared length, rewind, POST what the file holds from offset 0 and
      check the status. */
  function Upload(s: Stream, postStatus: int): Step<()> {
    if s.mode.write || s.mode.append then
      match Tell(s)
      case Err(e) => Step(s, Err(e))
      case Ok(length) =>
        var rewound := SeekTo(s, 0, 0);
        match rewound.result
        case Err(e) => Step(rewound.stream, Err(e))
        case Ok(_) =>
          match FileBuffer.Read(rewound.stream.file, -1)
          case Err(e) => Step(rewound.stream, Err(e))
          case Ok((f, body)) =>
            var sent := rewound.stream.(file := f, log := rewound.stream.log + [Post(s.uri, body, length)]);
            if RaisesForStatus(postStatus) then Step(sent, Err(HttpError(postStatus))) else Step(sent, Ok(()))
    else Step(s, Ok(()))
  }

  /** `__exit__(...)`. The exception of the scope is not looked at, so it
      takes no parameter for it. In "w" or "a" mode it POSTs exactly once:
      the whole file from offset 0, declaring the cursor position at exit as
      the length. Read mode issues nothing. Whatever happens, the file ends
      closed and the captured response is forgotten. */
  function Exit(s: Stream, postStatus: int): (r: Step<()>)
    ensures SameHandle(s, r.stream)
    ensures r.stream.file.closed && r.stream.state.None?
    ensures r.stream.file.content == s.file.content
    ensures (s.mode.write || s.mode.append) && !s.file.closed ==>
      && r.stream.log == s.log + [Post(s.uri, s.file.content, s.file.pos)]
      && r.result == if RaisesForStatus(postStatus) then Err(HttpError(postStatus)) else Ok(())
    ensures (s.mode.write || s.mode.append) && s.file.closed ==>
      r.stream.log == s.log && r.result == Err(ValueError(ClosedFileMessage))
    ensures !(s.mode.write || s.mode.append) ==>
      r.stream.log == s.log && r.result.Ok?
  {
    var attempt := Upload(s, postStatus);
    Step(attempt.stream.(file := FileBuffer.Close(attempt.stream.file), state := None), attempt.result)
  }
}

=== FILE: maybe.dfy ===
/** `Maybe`: a value that may have failed to be produced, with the
    exception that stopped it. */
module Maybes {
  import opened Wrappers
  import PyStr

  /** The Python values a `Maybe` is observed to hold. Values the model does
      not look inside carry their `str` and their truthiness. */
  datatype PyValue =
    | NoneValue
    | Boolean(b: bool)
    | Integer(i: int)
    | TextValue(s: string)
    | ListOf(items: seq<PyValue>)
    | DictOf(size: nat, id: nat)
    | Object(text: string, truthy: bool)
    | TupleOf(items: seq<PyValue>)

  /** A `Maybe`: the value and, when the computation failed, the `str` of its
      exception (an exception object is always truthy). */
  datatype Maybe = Maybe(value: PyValue, exception: Option<string>)

  /** Python truthiness. */
  predicate Truthy(v: PyValue) {
    match v
    case NoneValue => false
    case Boolean(b) => b
    case Integer(i) => i != 0
    case TextValue(s) => |s| > 0
    case ListOf(items) => |items| > 0
    case DictOf(size, _) => size > 0
    case Object(_, truthy) => truthy
    case TupleOf(items) => |items| > 0
  }

  /** The containers whose `str` the model does not spell out. */
  predicate IsContainer(v: PyValue) {
    v.ListOf? || v.DictOf? || v.TupleOf?
  }

  /** `str(v)` for a value printed as it is. */
  function Repr(v: PyValue): string
    requires !IsContainer(v)
  {
    match v
    case NoneValue => "None"
    case Boolean(b) => if b then "True" else "False"
    case Integer(i) => PyStr.IntToString(i)
    case TextValue(s) => s
    case Object(text, _) => text
  }

  /** `is_ok`: no exception was recorded. */
  function IsOk(m: Maybe): bool {
    m.exception.None?
  }

  /** `with_default(d)`: the value when there is no exception and the value
      is truthy, the default otherwise. */
  function WithDefault(m: Maybe, d: PyValue): (r: PyValue)
    ensures m.exception.Some? ==> r == d
    ensures m.exception.None? && Truthy(m.value) ==> r == m.value
    ensures !Truthy(m.value) ==> r == d
  {
    if IsOk(m) then (if Truthy(m.value) then m.value else d) else d
  }

  /** A truthy default makes `with_default` truthy, whatever the `Maybe`:
      a falsy value never gets through. */
  lemma WithDefaultIsTruthy(m: Maybe, d: PyValue)
    requires Truthy(d)
    ensures Truthy(WithDefault(m, d))
  {
  }

  /** The index of the first item that is not a string, if any. */
  function FirstNonText(items: seq<PyValue>): (k: int)
    ensures -1 <= k < |items|
    ensures k == -1 <==> forall i :: 0 <= i < |items| ==> items[i].TextValue?
    ensures k >= 0 ==> !items[k].TextValue? && forall i :: 0 <= i < k ==> items[i].TextValue?
  {
    if |items| == 0 then -1
    else if !items[0].TextValue? then 0
    else
      var k := FirstNonText(items[1..]);
      assert forall i :: 1 <= i < |items| ==> items[1..][i - 1] == items[i];
      if k == -1 then -1 else k + 1
  }

  /** The strings of a list whose items are all strings. */
  function Texts(items: seq<PyValue>): (ts: seq<string>)
    requires forall i :: 0 <= i < |items| ==> items[i].TextValue?
    ensures |ts| == |items|
    ensures forall i :: 0 <= i < |items| ==> ts[i] == items[i].s
  {
    seq(|items|, i requires 0 <= i < |items| => items[i].s)
  }

  /** `str(v)` for any value; `containerStr` is Python's `str` of a list,
      dict or tuple. */
  function StrOf(v: PyValue, containerStr: PyValue -> string): string {
    if IsContainer(v) then containerStr(v) else Repr(v)
  }

  const ArgumentsMessage := "not all arguments converted during string formatting"

  /** `str(m)`: a non-empty list is joined with newlines (a TypeError when an
      item is not a string); a non-empty dict is dumped as JSON (`dumps` is
      `json.dumps(..., indent=2)`, whose TypeError or ValueError on a value it
      cannot encode propagates); otherwise the value if truthy, else the
      exception, else "None", through `"%s" %`, so that a non-empty tuple is
      the argument list: one item prints as that item, more are a
      TypeError. */
  function Str(m: Maybe, dumps: nat -> Result<string>, containerStr: PyValue -> string): (r: Result<string>)
    ensures r.Err? <==>
      || (m.value.ListOf? && |m.value.items| > 0 && FirstNonText(m.value.items) >= 0)
      || (m.value.TupleOf? && |m.value.items| >= 2)
      || (m.value.DictOf? && m.value.size > 0 && dumps(m.value.id).Err?)
    ensures r.Ok? && m.value.ListOf? && |m.value.items| > 0 ==>
      r.value == PyStr.JoinWith(Texts(m.value.items), '\n')
    ensures m.value.DictOf? && m.value.size > 0 ==> r == dumps(m.value.id)
    ensures m.value.TupleOf? && |m.value.items| == 1 ==> r == Ok(StrOf(m.value.items[0], containerStr))
    ensures m.value.TupleOf? && |m.value.items| >= 2 ==> r == Err(TypeError(ArgumentsMessage))
    ensures Truthy(m.value) && !IsContainer(m.value) ==> r == Ok(Repr(m.value))
    ensures !Truthy(m.value) && m.exception.Some? ==> r == Ok(m.exception.value)
    ensures !Truthy(m.value) && m.exception.None? ==> r == Ok("None")
  {
    // `value or exception`, when the value is falsy
    var fallback := Ok(if m.exception.Some? then m.exception.value else "None");
    match m.value
    case ListOf(items) =>
      if |items| > 0 then
        var k := FirstNonText(items);
        if k >= 0 then Err(TypeError("sequence item " + PyStr.IntToString(k) + ": expected str instance"))
        else Ok(PyStr.JoinWith(Texts(items), '\n'))
      else fallback
    case DictOf(size, id) =>
      if size > 0 then dumps(id) else fallback
    case NoneValue => fallback
    case Boolean(b) => if b then Ok(Repr(m.value)) else fallback
    case Integer(i) => if i != 0 then Ok(Repr(m.value)) else fallback
    case TextValue(t) => if |t| > 0 then Ok(Repr(m.value)) else fallback
    case Object(_, truthy) => if truthy then Ok(Repr(m.value)) else fallback
    case TupleOf(items) =>
      if |items| == 0 then fallback
      else if |items| == 1 then Ok(StrOf(items[0], containerStr))
      else Err(TypeError(ArgumentsMessage))
  }

  /** The text of a non-empty list of single-line strings splits back, line
      by line, into those strings. */
  lemma StrOfLinesSplitsBack(items: seq<PyValue>, exception: Option<string>, dumps: nat -> Result<string>,
                             containerStr: PyValue -> string)
    requires |items| > 0
    requires forall i :: 0 <= i < |items| ==> items[i].TextValue? && '\n' !in items[i].s
    ensures
      var r := Str(Maybe(ListOf(items), exception), dumps, containerStr);
      && r.Ok?
      && PyStr.Split(r.value, '\n') == Texts(items)
  {
    PyStr.SplitJoin(Texts(items), '\n');
  }

  /** A falsy value with no exception prints as "None": `Maybe(0)` and
      `Maybe("")` print the same as `Maybe()`. */
  lemma FalsyValuePrintsNone(dumps: nat -> Result<string>, containerStr: PyValue -> string)
    ensures Str(Maybe(Integer(0), None), dumps, containerStr) == Ok("None")
    ensures Str(Maybe(TextValue(""), None), dumps, containerStr) == Ok("None")
    ensures Str(Maybe(NoneValue, None), dumps, containerStr) == Ok("None")
    ensures Str(Maybe(TupleOf([]), None), dumps, containerStr) == Ok("None")
  {
  }

  /** A value produced without exception is ok and is what `with_default`
      returns, as long as it is truthy. */
  lemma OkValueIsKept(v: PyValue, d: PyValue)
    requires Truthy(v)
    ensures IsOk(Maybe(v, None)) && WithDefault(Maybe(v, None), d) == v
  {
  }

  /** With an exception the value is ignored: not ok, and `with_default`
      returns the default. */
  lemma FailureUsesDefault(v: PyValue, e: string, d: PyValue)
    ensures !IsOk(Maybe(v, Some(e))) && WithDefault(Maybe(v, Some(e)), d) == d
  {
  }
  /** Whether a `Maybe` is ok depends on the exception alone: a falsy value
      without exception is ok, yet `with_default` still returns the default
      for it. */
  lemma OkIgnoresTheValue(v: PyValue, w: PyValue, e: Option<string>, d: PyValue)
    ensures IsOk(Maybe(v, e)) == IsOk(Maybe(w, e))
    ensures !Truthy(v) ==> IsOk(Maybe(v, None)) && WithDefault(Maybe(v, None), d) == d
  {
  }

  /** A one-item tuple prints as its item, whatever the exception; a tuple
      of two or more raises TypeError instead of printing. */
  lemma TuplesFormatAsArguments(s: string, e: Option<string>, dumps: nat -> Result<string>,
                                containerStr: PyValue -> string)
    ensures Str(Maybe(TupleOf([TextValue(s)]), e), dumps, containerStr) == Ok(s)
    ensures Str(Maybe(TupleOf([Integer(1), Integer(2)]), e), dumps, containerStr) == Err(TypeError(ArgumentsMessage))
  {
  }
}

=== FILE: pystr.dfy ===
/** The few Python string built-ins the modelled code relies on: slicing past
    the end, `rfind`, `rstrip`, `split`/`join`, `str(int)` and the two
    `posixpath` helpers `dirname` and `join`. */
module PyStr {

  /** Python's `s[k:]`, which is empty when `k` is past the end. */
  function Drop<T>(s: seq<T>, k: nat): (r: seq<T>)
    ensures k <= |s| ==> r == s[k..]
    ensures k >= |s| ==> r == []
  {
    if k <= |s| then s[k..] else []
  }

  predicate EndsWith(s: string, c: char) {
    |s| > 0 && s[|s| - 1] == c
  }

  predicate StartsWith(s: string, c: char) {
    |s| > 0 && s[0] == c
  }

  /** Every character of `s` is `c` (true of the empty string). */
  predicate AllChar(s: string, c: char) {
    forall i :: 0 <= i < |s| ==> s[i] == c
  }

  /** Python's `s.rfind(c)`: the index of the last `c` in `s`, or -1. */
  function RFind(s: string, c: char): (r: int)
    ensures -1 <= r < |s|
    ensures r >= 0 ==> s[r] == c
    ensures forall i :: r < i < |s| ==> s[i] != c
    ensures r == -1 <==> c !in s
  {
    if |s| == 0 then -1
    else if s[|s| - 1] == c then |s| - 1
    else RFind(s[..|s| - 1], c)
  }

  /** Python's `s.rstrip(c)` for a single character. */
  function RStrip(s: string, c: char): (r: string)
    ensures |r| <= |s| && r == s[..|r|]
    ensures !EndsWith(r, c)
    ensures forall i :: |r| <= i < |s| ==> s[i] == c
  {
    if EndsWith(s, c) then RStrip(s[..|s| - 1], c) else s
  }

  /** `posixpath.dirname(p)`: everything up to the last '/', with trailing
      slashes removed unless the head is made of slashes only. */
  function Dirname(p: string): string {
    var i := RFind(p, '/') + 1;
    var head := p[..i];
    if |head| > 0 && !AllChar(head, '/') then RStrip(head, '/') else head
  }

  /** When the last '/' of `p` is not its first character and follows a
      character other than '/', `dirname` is everything before it. */
  lemma DirnameBeforeLastSlash(p: string)
    requires '/' in p
    requires RFind(p, '/') >= 1 && p[RFind(p, '/') - 1] != '/'
    ensures Dirname(p) == p[..RFind(p, '/')]
  {
    var cut := RFind(p, '/');
    var head := p[..cut + 1];
    assert head[cut - 1] != '/';
    assert EndsWith(head, '/');
    assert head[..cut] == p[..cut];
    assert !EndsWith(p[..cut], '/');
    assert RStrip(head, '/') == RStrip(p[..cut], '/');
  }

  /** `posixpath.join(a, b)` for two components. */
  function PathJoin(a: string, b: string): string {
    if StartsWith(b, '/') then b
    else if |a| == 0 || EndsWith(a, '/') then a + b
    else a + "/" + b
  }

  /** Python's `s.split(c)`: the pieces between occurrences of `c`, built
      from the right so that the last piece is what follows the last `c`. */
  function Split(s: string, c: char): (parts: seq<string>)
    ensures |parts| >= 1
    ensures forall k :: 0 <= k < |parts| ==> c !in parts[k]
    ensures |parts| >= 2 <==> c in s
    ensures c in s ==> parts[|parts| - 1] == s[RFind(s, c) + 1..]
    decreases |s|
  {
    if c !in s then [s]
    else
      var i := RFind(s, c);
      Split(s[..i], c) + [s[i + 1..]]
  }

  /** Python's `c.join(parts)`. */
  function JoinWith(parts: seq<string>, c: char): string {
    if |parts| == 0 then ""
    else if |parts| == 1 then parts[0]
    else JoinWith(parts[..|parts| - 1], c) + [c] + parts[|parts| - 1]
  }

  /** Joining the pieces of a split with the same separator gives back the
      original string. */
  lemma {:induction false} JoinSplit(s: string, c: char)
    ensures JoinWith(Split(s, c), c) == s
    decreases |s|
  {
    if c in s {
      var i := RFind(s, c);
      var front := Split(s[..i], c);
      JoinSplit(s[..i], c);
      var parts := front + [s[i + 1..]];
      assert parts[..|parts| - 1] == front;
      assert s == s[..i] + [c] + s[i + 1..];
    }
  }

  /** The last `c` of `x + [c] + y` is the one in the middle when `y` has none. */
  lemma RFindJoined(x: string, c: char, y: string)
    requires c !in y
    ensures RFind(x + [c] + y, c) == |x|
  {
    var s := x + [c] + y;
    assert s[|x|] == c;
  }

  /** Splitting a join of pieces that do not contain the separator gives
      back the pieces. */
  lemma {:induction false} SplitJoin(parts: seq<string>, c: char)
    requires |parts| >= 1
    requires forall k :: 0 <= k < |parts| ==> c !in parts[k]
    ensures Split(JoinWith(parts, c), c) == parts
    decreases |parts|
  {
    if |parts| > 1 {
      var front := parts[..|parts| - 1];
      var last := parts[|parts| - 1];
      var x := JoinWith(front, c);
      SplitJoin(front, c);
      var s := x + [c] + last;
      assert JoinWith(parts, c) == s;
      RFindJoined(x, c, last);
      assert s[|x|] == c;
      assert s[..|x|] == x;
      assert s[|x| + 1..] == last;
      assert front + [last] == parts;
    }
  }

  function DigitChar(d: nat): char
    requires d < 10
  {
    "0123456789"[d]
  }

  /** The decimal digits of `n`, most significant first. */
  function NatToString(n: nat): string
    decreases n
  {
    if n < 10 then [DigitChar(n)] else NatToString(n / 10) + [DigitChar(n % 10)]
  }

  /** Python's `str(i)` for an int. */
  function IntToString(i: int): string {
    if i < 0 then "-" + NatToString(-i) else NatToString(i)
  }
}

=== FILE: s3_bucket.dfy ===
/** `S3Bucket`: a bucket name with a prefix rule, the keys and URIs it
    builds, the paginated listing of its objects as resources, and the
    resources it creates. `list_objects_v2` is an oracle: the listing takes
    the pages the service would return. */
module S3Buckets {
  import opened Wrappers
  import opened S3Streams
  import opened S3Resources
  import PyStr

  /** The default prefix rule, which leaves the name as it is. */
  function Noop(key: string): string {
    key
  }

  /** A bucket: its name, its prefix (the rule applied to "") and the rule. */
  datatype Bucket = Bucket(name: string, prefix: string, getPrefix: string -> string)

  /** `S3Bucket(name, get_prefix)`. */
  function NewBucket(name: string, getPrefix: string -> string): Bucket {
    Bucket(name, getPrefix(""), getPrefix)
  }

  /** `create_resource_key(filename)`: the prefix rule applied to the name. */
  function CreateResourceKey(b: Bucket, filename: string): string {
    b.getPrefix(filename)
  }

  /** `create_resource_uri(filename, protocol)`. */
  function CreateResourceUri(b: Bucket, filename: string, protocol: string): string {
    protocol + b.name + "/" + CreateResourceKey(b, filename)
  }

  /** With the default rule the bucket prefix is empty and a key is the name. */
  lemma NoopRuleKeepsNames(name: string, filename: string, protocol: string)
    ensures NewBucket(name, Noop).prefix == ""
    ensures CreateResourceKey(NewBucket(name, Noop), filename) == filename
    ensures CreateResourceUri(NewBucket(name, Noop), filename, protocol) == protocol + name + "/" + filename
  {
  }

  /** How a listed key is cut into prefix and filename: everything up to and
      including the last '/' is the prefix, the rest the filename. */
  function SplitListedKey(key: string): (r: (string, string))
    ensures r.0 + r.1 == key
    ensures '/' !in r.1
    ensures r.0 == "" <==> '/' !in key
    ensures r.0 != "" ==> PyStr.EndsWith(r.0, '/')
  {
    var chunks := PyStr.Split(key, '/');
    if |chunks| >= 2 then
      var front := chunks[..|chunks| - 1];
      SplitPrefix(key, chunks, front);
      (PyStr.JoinWith(front, '/') + "/", chunks[|chunks| - 1])
    else ("", key)
  }

  /** The prefix the listing rebuilds is the key up to its last '/'. */
  lemma SplitPrefix(key: string, chunks: seq<string>, front: seq<string>)
    requires chunks == PyStr.Split(key, '/') && |chunks| >= 2 && front == chunks[..|chunks| - 1]
    ensures PyStr.JoinWith(front, '/') + "/" + chunks[|chunks| - 1] == key
    ensures PyStr.EndsWith(PyStr.JoinWith(front, '/') + "/", '/')
  {
    PyStr.JoinSplit(key, '/');
    assert chunks[..|chunks| - 1] == front;
  }

  /** `to_s3_resource(item)`: the resource for a listed key, typed
      "application/octet-stream" and bound to the bucket. */
  function ToResource(b: Bucket, key: string, randomName: string, env: Env, codecs: Codecs): (r: Resource)
    ensures r.bucketname == b.name && ContentType(r) == OctetStream && r.log == []
  {
    var (prefix, filename) := SplitListedKey(key);
    var made := New(filename, OctetStream, b.name, prefix, "s3a://", NoStream, map[], randomName, env, codecs);
    made.value
  }

  /** A listed key that does not end in '/' comes back as the resource's key,
      and its URI is the bucket's URI for that key. */
  lemma ListedKeyRoundTrip(b: Bucket, key: string, randomName: string, env: Env, codecs: Codecs)
    requires key != "" && !PyStr.EndsWith(key, '/')
    ensures Key(ToResource(b, key, randomName, env, codecs)) == Ok(key)
    ensures b.name != "" ==> Uri(ToResource(b, key, randomName, env, codecs)) == Ok("s3a://" + b.name + "/" + key)
  {
    var (prefix, filename) := SplitListedKey(key);
    PlainNameIsKept(filename, prefix, randomName);
  }

  /** One page of `list_objects_v2`: its keys, whether more follow, and the
      continuation token ("" when absent). */
  datatype Page = Page(keys: seq<string>, truncated: bool, nextToken: string)

  /** The arguments of one `list_objects_v2` call ("" token when absent). */
  datatype ListRequest = ListRequest(maxKeys: int, prefix: string, bucket: string, token: string)

  const MaxKeys := 1000

  /** Some page says no more follow, so the listing ends. */
  predicate ListingEnds(pages: seq<Page>) {
    exists k :: 0 <= k < |pages| && !pages[k].truncated
  }

  /** The index of the first page that is not truncated. */
  function LastPage(pages: seq<Page>): (k: nat)
    requires ListingEnds(pages)
    ensures k < |pages| && !pages[k].truncated
    ensures forall j :: 0 <= j < k ==> pages[j].truncated
  {
    if !pages[0].truncated then 0
    else
      assert ListingEnds(pages[1..]) by {
        var k :| 0 <= k < |pages| && !pages[k].truncated;
        assert pages[1..][k - 1] == pages[k];
      }
      var k := LastPage(pages[1..]);
      assert forall j :: 1 <= j <= k ==> pages[j] == pages[1..][j - 1];
      k + 1
  }

  /** The keys of a sequence of pages, in order. */
  function Keys(pages: seq<Page>): seq<string> {
    if |pages| == 0 then [] else Keys(pages[..|pages| - 1]) + pages[|pages| - 1].keys
  }

  /** Every key the listing can see: those of the pages up to the last one. */
  function Listed(pages: seq<Page>): seq<string>
    requires ListingEnds(pages)
  {
    Keys(pages[..LastPage(pages) + 1])
  }

  /** The keys of fewer pages are a prefix of the keys of more pages. */
  lemma {:induction false} KeysPrefix(pages: seq<Page>, i: nat, j: nat)
    requires i <= j <= |pages|
    ensures |Keys(pages[..i])| <= |Keys(pages[..j])|
    ensures Keys(pages[..j])[..|Keys(pages[..i])|] == Keys(pages[..i])
    decreases j - i
  {
    if i < j {
      KeysPrefix(pages, i, j - 1);
      assert pages[..j][..j - 1] == pages[..j - 1];
      assert Keys(pages[..j]) == Keys(pages[..j - 1]) + pages[j - 1].keys;
    }
  }

  /** The prefix a listing asks for: the rule applied to the given prefix
      when the listing stays within the project. */
  function ListingPrefix(b: Bucket, prefix: string, withinProject: bool): string {
    if withinProject then b.getPrefix(prefix) else prefix
  }

  /** Listing within the project asks for keys under the bucket's own
      prefix: with a rule that prepends that prefix the listing prefix is
      the bucket prefix followed by the one given, and with the default rule
      it is the given one; outside the project it is always the given one. */
  lemma ProjectListingUsesBucketPrefix(name: string, getPrefix: string -> string, prefix: string)
    requires forall x :: getPrefix(x) == getPrefix("") + x
    ensures ListingPrefix(NewBucket(name, getPrefix), prefix, true) == NewBucket(name, getPrefix).prefix + prefix
    ensures ListingPrefix(NewBucket(name, getPrefix), prefix, false) == prefix
    ensures ListingPrefix(NewBucket(name, Noop), prefix, true) == prefix
  {
    assert getPrefix(prefix) == getPrefix("") + prefix;
  }

  /** The keys of one more page. */
  lemma KeysStep(pages: seq<Page>, k: nat)
    requires k < |pages|
    ensures Keys(pages[..k + 1]) == Keys(pages[..k]) + pages[k].keys
  {
    assert pages[..k + 1][..k] == pages[..k];
  }

  /** The keys `list` yields: it pages through the listing and stops after
      the first `maxObjects` keys (never, when `maxObjects` is not
      positive). `pages[k]` is the reply to the k-th request; `requests` are
      the calls made. */
  method ListKeys(b: Bucket, prefix: string, withinProject: bool, maxObjects: int, pages: seq<Page>)
      returns (listed: seq<string>, requests: seq<ListRequest>)
    requires ListingEnds(pages)
    ensures |listed| == if 0 < maxObjects < |Listed(pages)| then maxObjects else |Listed(pages)|
    ensures listed == Listed(pages)[..|listed|]
    ensures 1 <= |requests| <= LastPage(pages) + 1
    ensures maxObjects <= 0 ==> |requests| == LastPage(pages) + 1
    ensures forall j :: 0 <= j < |requests| ==>
      requests[j] == ListRequest(MaxKeys, ListingPrefix(b, prefix, withinProject), b.name,
                                 if j == 0 then "" else pages[j - 1].nextToken)
  {
    var listPrefix := ListingPrefix(b, prefix, withinProject);
    var last := LastPage(pages);
    ghost var all := Listed(pages);
    assert all == Keys(pages[..last + 1]);
    var count := 0;
    var k := 0;
    var token := "";
    listed := [];
    requests := [];
    while true
      invariant 0 <= k <= last
      invariant listed == Keys(pages[..k]) && count == |listed|
      invariant maxObjects > 0 ==> count <= maxObjects
      invariant |requests| == k
      invariant forall j :: 0 <= j < k ==>
        requests[j] == ListRequest(MaxKeys, listPrefix, b.name, if j == 0 then "" else pages[j - 1].nextToken)
      invariant token == if k == 0 then "" else pages[k - 1].nextToken
      decreases last - k
    {
      requests := requests + [ListRequest(MaxKeys, listPrefix, b.name, token)];
      var page := pages[k];
      var size := |page.keys|;
      KeysStep(pages, k);
      KeysPrefix(pages, k + 1, last + 1);
      if count >= maxObjects > 0 {
        KeysPrefix(pages, k, last + 1);
        break;
      }
      if count + size > maxObjects > 0 {
        var taken := listed + page.keys[..maxObjects - count];
        assert taken == Keys(pages[..k + 1])[..maxObjects];
        listed := taken;
        break;
      }
      listed := listed + page.keys;
      count := count + size;
      if !page.truncated {
        assert k == last;
        assert all[..|listed|] == all;
        break;
      }
      token := page.nextToken;
      k := k + 1;
    }
  }

  /** `list(prefix, within_project, max_objects)`: the resources for the
      keys `ListKeys` yields, in order; the i-th listed item gets the i-th
      random name. */
  method List(b: Bucket, prefix: string, withinProject: bool, maxObjects: int, pages: seq<Page>,
              names: nat -> string, env: Env, codecs: Codecs)
      returns (resources: seq<Resource>, requests: seq<ListRequest>)
    requires ListingEnds(pages)
    ensures
      var all := Listed(pages);
      var n := if 0 < maxObjects < |all| then maxObjects else |all|;
      && |resources| == n
      && forall i :: 0 <= i < n ==> resources[i] == ToResource(b, all[i], names(i), env, codecs)
    ensures 1 <= |requests| <= LastPage(pages) + 1
    ensures maxObjects <= 0 ==> |requests| == LastPage(pages) + 1
    ensures forall j :: 0 <= j < |requests| ==>
      requests[j] == ListRequest(MaxKeys, ListingPrefix(b, prefix, withinProject), b.name,
                                 if j == 0 then "" else pages[j - 1].nextToken)
  {
    var listed;
    listed, requests := ListKeys(b, prefix, withinProject, maxObjects, pages);
    resources := seq(|listed|, i requires 0 <= i < |listed| => ToResource(b, listed[i], names(i), env, codecs));
    forall i | 0 <= i < |listed|
      ensures listed[i] == Listed(pages)[i]
    {
      assert listed[i] == Listed(pages)[..|listed|][i];
    }
  }

  /** The keyword names `create_resource` passes to `S3Resource` itself. */
  const PassedKeywords: set<string> := {"bucketname", "prefix", "stream", "s3client", "Metadata"}

  /** The keyword names `create_resource` binds to its own parameters, which
      therefore never reach `**kwargs`. */
  const OwnParameters: set<string> := {"filename", "content_type", "obj", "protocol", "metadata", "pandas_kwargs"}

  /** The content type `create_resource` settles on: the given one, else the
      converted object's, else "application/octet-stream". */
  function CreatedType(contentType: string, stream: Option<S3Stream>): (ct: string)
    ensures ct != ""
    ensures contentType != "" ==> ct == contentType
    ensures contentType == "" && stream.Some? && stream.value.contentType != "" ==> ct == stream.value.contentType
  {
    var chosen := if contentType == "" && stream.Some? then stream.value.contentType else contentType;
    if chosen != "" then chosen else OctetStream
  }

  /** `create_resource(filename, content_type, obj, protocol, metadata,
      pandas_kwargs, **kwargs)`: converts `obj` (when given) with `from_any`,
      settles the content type, and builds a resource in this bucket under
      the bucket's prefix, with the metadata among its extra arguments. A
      keyword it already passes to `S3Resource` is a TypeError. */
  function CreateResource(b: Bucket, filename: string, contentType: string, obj: Option<Payload>, protocol: string,
                          metadata: map<string, string>, outputAs: string, kwargs: map<string, Arg>,
                          randomName: string, env: Env, codecs: Codecs): (r: Result<Resource>)
    requires kwargs.Keys !! OwnParameters
    ensures r.Ok? <==> kwargs.Keys !! PassedKeywords
    ensures r.Ok? ==>
      && r.value.bucketname == b.name
      && r.value.protocol == protocol
      && (r.value.filename, r.value.prefix) == NormaliseName(filename, b.prefix, randomName)
      && r.value.stream.Some? == obj.Some?
      && (obj.Some? ==> r.value.stream.value.io == FromAny(obj.value, contentType, outputAs, env, codecs).io)
      && ContentType(r.value) == CreatedType(contentType,
                                             if obj.Some? then Some(FromAny(obj.value, contentType, outputAs, env, codecs))
                                             else None)
      && "Metadata" in r.value.extraArgs && r.value.extraArgs["Metadata"] == MapArg(metadata)
      && "stats" !in r.value.extraArgs
      && (forall k :: k in kwargs && k != "stats" ==> k in r.value.extraArgs && r.value.extraArgs[k] == kwargs[k])
      && r.value.extraArgs == map["Metadata" := MapArg(metadata)] + (kwargs - {"stats"})
      && r.value.givenType == CreatedType(contentType,
                                          if obj.Some? then Some(FromAny(obj.value, contentType, outputAs, env, codecs))
                                          else None)
      && r.value.log == []
  {
    if !(kwargs.Keys !! PassedKeywords) then Err(TypeError("got multiple values for keyword argument"))
    else
      var stream := if obj.Some? then Some(FromAny(obj.value, contentType, outputAs, env, codecs)) else None;
      var ct := CreatedType(contentType, stream);
      var arg := if stream.Some? then GivenStream(stream.value) else NoStream;
      var extra := map["Metadata" := MapArg(metadata)] + (kwargs - {"stats"});
      New(filename, ct, b.name, b.prefix, protocol, arg, extra, randomName, env, codecs)
  }

  /** With a prefix rule that prepends the bucket prefix, a resource created
      from a plain name has exactly the key and URI the bucket builds for it. */
  lemma CreatedResourceMatchesBucketKey(name: string, getPrefix: string -> string, filename: string,
                                        contentType: string, obj: Option<Payload>, protocol: string,
                                        metadata: map<string, string>, outputAs: string, kwargs: map<string, Arg>,
                                        randomName: string, env: Env, codecs: Codecs)
    requires forall x :: getPrefix(x) == getPrefix("") + x
    requires filename != "" && '/' !in filename
    requires kwargs.Keys !! OwnParameters && kwargs.Keys !! PassedKeywords
    ensures
      var b := NewBucket(name, getPrefix);
      var r := CreateResource(b, filename, contentType, obj, protocol, metadata, outputAs, kwargs, randomName, env, codecs);
      && r.Ok?
      && Key(r.value) == Ok(CreateResourceKey(b, filename))
      && (name != "" ==> Uri(r.value) == Ok(CreateResourceUri(b, filename, protocol)))
      && (name != "" ==> S3Resources.Str(r.value) == Ok(CreateResourceUri(b, filename, protocol)))
      && (name == "" ==> S3Resources.Str(r.value) == Ok(CreateResourceKey(b, filename)))
  {
    var b := NewBucket(name, getPrefix);
    PlainNameIsKept(filename, b.prefix, randomName);
    assert getPrefix(filename) == getPrefix("") + filename;
  }

  /** `upload(...)`: removed; always raises DeprecationWarning. */
  function Upload(b: Bucket, filepath: string, body: Payload, contentType: string, protocol: string): (r: Result<()>)
    ensures r.Err? && r.error.DeprecationWarning?
  {
    Err(DeprecationWarning("S3Bucket.upload is deprecated since v0.2.0. Please use S3Resource.save instead."))
  }
}

=== FILE: s3_resource.dfy ===
/** `S3Resource`: a named object in a bucket, with an optional local stream.
    The names (filename, prefix, key, URI), the content-type precedence, the
    cached download, `load`'s dispatch and the argument logic of `save`.
    boto3 is an oracle: the download reply and the upload outcome are
    parameters, and the resource logs the calls it makes. */
module S3Resources {
  import opened Wrappers
  import opened FileBuffer
  import opened S3Streams
  import PyStr

  /** A keyword argument passed through to boto3. */
  datatype Arg = StrArg(s: string) | MapArg(m: map<string, string>) | OpaqueArg(id: nat)

  /** What `upload_fileobj` receives: text encoded as UTF-8, or raw bytes. */
  datatype UploadBody = Utf8Of(text: string) | RawBytes(bytes: seq<byte>)

  /** A boto3 call made by a resource. */
  datatype S3Call =
    | Download(bucket: string, key: string, extraArgs: map<string, Arg>)
    | Upload(body: UploadBody, bucket: string, key: string, extraArgs: map<string, Arg>)

  /** The resource: its names, the content type given to the constructor,
      its stream once it has one, the extra boto3 arguments and its calls. */
  datatype Resource = Resource(
    filename: string,
    givenType: string,
    bucketname: string,
    prefix: string,
    protocol: string,
    stream: Option<S3Stream>,
    extraArgs: map<string, Arg>,
    log: seq<S3Call>)

  /** The constructor's `stream` argument: absent, an `S3Stream`, or any
      other object to be converted. */
  datatype StreamArg = NoStream | GivenStream(stream: S3Stream) | GivenPayload(payload: Payload)

  /** A parsed JSON document. */
  datatype Json = JObject(fields: seq<(string, Json)>) | JArray(items: seq<Json>) | JScalar(text: string)

  /** How `load` calls the constructor it is given. */
  datatype CtorArgs = Keywords(fields: seq<(string, Json)>) | Positional(items: seq<Json>) | Single(value: Json)

  /** What `load` returns: the parsed document, or the constructor's result
      (identified by the arguments it was called with). */
  datatype Loaded = Parsed(json: Json) | Constructed(args: CtorArgs)

  /** `uuid4().hex`: 32 lower-case hexadecimal digits. */
  predicate IsUuidHex(s: string) {
    |s| == 32 && forall i :: 0 <= i < |s| ==> s[i] in "0123456789abcdef"
  }

  /** No '/' at the start and no two '/' in a row. */
  ghost predicate PlainPath(p: string) {
    && !PyStr.StartsWith(p, '/')
    && forall i, j :: 0 <= i < j < |p| && j == i + 1 ==> !(p[i] == '/' && p[j] == '/')
  }

  /** The constructor's renaming: an empty filename becomes a fresh random
      name; a directory part of the filename moves into the prefix. */
  function NormaliseName(filename: string, prefix: string, randomName: string): (string, string) {
    var name := if filename != "" then filename else randomName;
    var dir := PyStr.Dirname(name);
    if dir != "" then (PyStr.Drop(name, |dir| + 1), PyStr.PathJoin(prefix, dir) + "/")
    else (name, prefix)
  }

  /** A filename with no '/' is kept as it is, and so is the prefix. */
  lemma PlainNameIsKept(filename: string, prefix: string, randomName: string)
    requires filename != "" && '/' !in filename
    ensures NormaliseName(filename, prefix, randomName) == (filename, prefix)
  {
  }

  /** An empty filename is replaced by the fresh random name, which has no
      directory part, so the stored filename is that non-empty name. */
  lemma EmptyNameGetsRandomName(prefix: string, randomName: string)
    requires IsUuidHex(randomName)
    ensures NormaliseName("", prefix, randomName) == (randomName, prefix)
  {
  }

  /** The renaming once `dirname` is known to be the part before the last '/'. */
  lemma NormaliseAtLastSlash(filename: string, prefix: string, randomName: string)
    requires '/' in filename && PyStr.RFind(filename, '/') >= 1
    requires PyStr.Dirname(filename) == filename[..PyStr.RFind(filename, '/')]
    ensures
      var cut := PyStr.RFind(filename, '/');
      NormaliseName(filename, prefix, randomName)
      == (filename[cut + 1..], PyStr.PathJoin(prefix, filename[..cut]) + "/")
  {
    var cut := PyStr.RFind(filename, '/');
    var dir := PyStr.Dirname(filename);
    assert |dir| == cut && dir != "";
    assert PyStr.Drop(filename, |dir| + 1) == filename[cut + 1..];
  }

  /** Cutting a path at a '/' that is not its first character and joining
      the two sides back under a prefix that is empty or ends in '/'. */
  lemma JoinAtSlash(filename: string, prefix: string, cut: int)
    requires 1 <= cut < |filename| && filename[cut] == '/' && filename[0] != '/'
    requires prefix == "" || PyStr.EndsWith(prefix, '/')
    ensures PyStr.PathJoin(prefix, filename[..cut]) + "/" + filename[cut + 1..] == prefix + filename
  {
    var dir := filename[..cut];
    assert dir[0] == filename[0];
    assert PyStr.PathJoin(prefix, dir) == prefix + dir;
    assert filename[..cut + 1] == dir + "/";
    assert filename == filename[..cut + 1] + filename[cut + 1..];
  }

  /** In a plain path a '/' is never preceded by another '/'. */
  lemma NoSlashBeforeSlash(p: string, k: int)
    requires PlainPath(p) && 1 <= k < |p| && p[k] == '/'
    ensures p[k - 1] != '/'
  {
  }

  /** The renaming of a path whose last '/' is neither its first character
      nor preceded by another '/'. */
  lemma NormaliseAtSingleSlash(filename: string, prefix: string, randomName: string)
    requires '/' in filename && !PyStr.StartsWith(filename, '/')
    requires PyStr.RFind(filename, '/') >= 1 && filename[PyStr.RFind(filename, '/') - 1] != '/'
    ensures
      var cut := PyStr.RFind(filename, '/');
      var n := NormaliseName(filename, prefix, randomName);
      && n.0 == filename[cut + 1..]
      && '/' !in n.0
      && n.1 == PyStr.PathJoin(prefix, filename[..cut]) + "/"
      && (prefix == "" || PyStr.EndsWith(prefix, '/') ==> n.1 + n.0 == prefix + filename)
  {
    var cut := PyStr.RFind(filename, '/');
    PyStr.DirnameBeforeLastSlash(filename);
    NormaliseAtLastSlash(filename, prefix, randomName);
    var name := filename[cut + 1..];
    assert '/' !in name by {
      forall i | 0 <= i < |name|
        ensures name[i] != '/'
      {
        assert name[i] == filename[cut + 1 + i];
      }
    }
    if prefix == "" || PyStr.EndsWith(prefix, '/') {
      JoinAtSlash(filename, prefix, cut);
    }
  }

  /** For a plain path with a directory part, the stored filename is the last
      segment and the prefix is `join(prefix, dir) + "/"`; when the prefix is
      empty or ends in '/', prefix and filename together spell the original
      prefix followed by the original filename. */
  lemma DirectoryMovesIntoPrefix(filename: string, prefix: string, randomName: string)
    requires PlainPath(filename) && '/' in filename
    ensures
      var cut := PyStr.RFind(filename, '/');
      var n := NormaliseName(filename, prefix, randomName);
      && n.0 == filename[cut + 1..]
      && '/' !in n.0
      && n.1 == PyStr.PathJoin(prefix, filename[..cut]) + "/"
      && (prefix == "" || PyStr.EndsWith(prefix, '/') ==> n.1 + n.0 == prefix + filename)
  {
    var cut := PyStr.RFind(filename, '/');
    assert cut >= 1;
    NoSlashBeforeSlash(filename, cut);
    NormaliseAtSingleSlash(filename, prefix, randomName);
  }

  /** The constructor applied to a filename ending in '/' stores an empty
      filename, which `key` then refuses. */
  lemma TrailingSlashEmptiesFilename(randomName: string)
    ensures NormaliseName("dir/", "", randomName) == ("", "dir/")
  {
    assert '/' in "dir/" by { assert "dir/"[3] == '/'; }
    assert PyStr.RFind("dir/", '/') == 3;
    PyStr.DirnameBeforeLastSlash("dir/");
    NormaliseAtLastSlash("dir/", "", randomName);
    assert "dir/"[..3] == "dir" && "dir/"[4..] == "";
    assert PyStr.PathJoin("", "dir") == "dir" by { assert !PyStr.StartsWith("dir", '/'); }
    assert "dir" + "/" == "dir/";
  }

  /** A content type given to the constructor overrides the stream's. */
  function OverrideType(st: S3Stream, contentType: string): S3Stream {
    if contentType != "" then st.(contentType := contentType) else st
  }

  /** The constructor's stream handling: a truthy non-stream object is
      converted with `from_any`; a falsy one counts as no stream. */
  function AttachStream(arg: StreamArg, contentType: string, env: Env, codecs: Codecs): Result<Option<S3Stream>> {
    match arg
    case NoStream => Ok(None)
    case GivenStream(st) => Ok(Some(OverrideType(st, contentType)))
    case GivenPayload(p) =>
      match Truthy(p)
      case Err(e) => Err(e)
      case Ok(truthy) =>
        if truthy then Ok(Some(OverrideType(FromAny(p, contentType, "csv", env, codecs), contentType)))
        else Ok(None)
  }

  /** `S3Resource(filename, content_type, bucketname, prefix, protocol,
      stream, **kwargs)`. `randomName` is the name `uuid4().hex` would
      produce. */
  function New(filename: string, contentType: string, bucketname: string, prefix: string, protocol: string,
               arg: StreamArg, kwargs: map<string, Arg>, randomName: string, env: Env, codecs: Codecs): (r: Result<Resource>)
    ensures r.Ok? <==> !(arg.GivenPayload? && arg.payload.Frame?)
    ensures r.Ok? ==>
      && (r.value.filename, r.value.prefix) == NormaliseName(filename, prefix, randomName)
      && r.value.givenType == contentType
      && r.value.bucketname == bucketname && r.value.protocol == protocol
      && r.value.extraArgs == kwargs && r.value.log == []
    ensures r.Ok? && arg.NoStream? ==> r.value.stream.None?
    ensures r.Ok? && arg.GivenStream? ==> r.value.stream == Some(OverrideType(arg.stream, contentType))
    ensures r.Ok? && arg.GivenPayload? ==>
      r.value.stream == if Truthy(arg.payload).value
                        then Some(OverrideType(FromAny(arg.payload, contentType, "csv", env, codecs), contentType))
                        else None
    ensures r.Ok? && r.value.stream.Some? && contentType != "" ==> r.value.stream.value.contentType == contentType
  {
    var (name, pre) := NormaliseName(filename, prefix, randomName);
    match AttachStream(arg, contentType, env, codecs)
    case Err(e) => Err(e)
    case Ok(st) => Ok(Resource(name, contentType, bucketname, pre, protocol, st, kwargs, []))
  }

  /** `content_type`: the stream's when there is a stream, otherwise the
      constructor's, otherwise "application/octet-stream". */
  function ContentType(r: Resource): (ct: string)
    ensures r.stream.Some? ==> ct == r.stream.value.contentType
    ensures r.stream.None? ==> ct != "" && (r.givenType != "" ==> ct == r.givenType)
    ensures r.stream.None? && r.givenType == "" ==> ct == OctetStream
  {
    if r.stream.Some? then r.stream.value.contentType
    else if r.givenType != "" then r.givenType
    else OctetStream
  }

  /** A freshly built resource reports the constructor's content type when
      one is given; without one it reports the stream's, and with neither
      "application/octet-stream". */
  lemma ContentTypePrecedence(filename: string, contentType: string, bucketname: string, prefix: string,
                              protocol: string, arg: StreamArg, kwargs: map<string, Arg>, randomName: string,
                              env: Env, codecs: Codecs)
    requires New(filename, contentType, bucketname, prefix, protocol, arg, kwargs, randomName, env, codecs).Ok?
    ensures
      var r := New(filename, contentType, bucketname, prefix, protocol, arg, kwargs, randomName, env, codecs).value;
      && (contentType != "" ==> ContentType(r) == contentType)
      && (contentType == "" && arg.GivenStream? ==> ContentType(r) == arg.stream.contentType)
      && (contentType == "" && arg.NoStream? ==> ContentType(r) == OctetStream)
  {
  }

  /** `key`: prefix followed by filename; an empty filename is a ValueError. */
  function Key(r: Resource): (k: Result<string>)
    ensures k.Ok? <==> r.filename != ""
    ensures k.Ok? ==> k.value == r.prefix + r.filename
    ensures k.Err? ==> k.error == ValueError("filename cannot be empty.")
  {
    if r.filename == "" then Err(ValueError("filename cannot be empty.")) else Ok(r.prefix + r.filename)
  }

  /** `uri`: protocol, bucket name, "/" and key; an empty bucket name is a
      ValueError, and so is an empty filename through `key`. */
  function Uri(r: Resource): (u: Result<string>)
    ensures u.Ok? <==> r.bucketname != "" && r.filename != ""
    ensures u.Ok? ==> u.value == r.protocol + r.bucketname + "/" + r.prefix + r.filename
    ensures r.bucketname == "" ==> u == Err(ValueError("bucketname cannot be empty."))
    ensures r.bucketname != "" && r.filename == "" ==> u == Key(r)
  {
    if r.bucketname == "" then Err(ValueError("bucketname cannot be empty."))
    else
      match Key(r)
      case Err(e) => Err(e)
      case Ok(key) => Ok(r.protocol + r.bucketname + "/" + key)
  }

  /** The renaming in the source's own example. */
  lemma ExampleRenaming(f: string, randomName: string)
    requires f == "subprefix/filename.ext"
    ensures NormaliseName(f, "prefix/", randomName) == ("filename.ext", "prefix/subprefix/")
  {
    var r := PyStr.RFind(f, '/');
    assert f[9] == '/';
    assert r == 9 by {
      assert f[10..] == "filename.ext";
    }
    NormaliseAtSingleSlash(f, "prefix/", randomName);
    assert f[..9] == "subprefix";
    assert f[10..] == "filename.ext";
    assert PyStr.PathJoin("prefix/", "subprefix") == "prefix/subprefix";
    assert "prefix/subprefix" + "/" == "prefix/subprefix/";
  }

  /** The resource built in the source's own example: "subprefix/filename.ext"
      under "prefix/" has key "prefix/subprefix/filename.ext". */
  lemma FullPathExample(filename: string, prefix: string, randomName: string, env: Env, codecs: Codecs)
    requires filename == "subprefix/filename.ext" && prefix == "prefix/"
    ensures
      var r := New(filename, "application/json", "bucketname", prefix, "protocol://",
                   NoStream, map[], randomName, env, codecs);
      && r.Ok?
      && r.value.filename == "filename.ext"
      && r.value.prefix == "prefix/subprefix/"
      && Key(r.value) == Ok("prefix/subprefix/filename.ext")
      && Uri(r.value) == Ok("protocol://bucketname/prefix/subprefix/filename.ext")
  {
    ExampleRenaming(filename, randomName);
    var r := New(filename, "application/json", "bucketname", prefix, "protocol://",
                 NoStream, map[], randomName, env, codecs).value;
    ExampleStrings(r.prefix, r.filename);
  }

  lemma ExampleStrings(prefix: string, filename: string)
    requires prefix == "prefix/subprefix/" && filename == "filename.ext"
    ensures prefix + filename == "prefix/subprefix/filename.ext"
    ensures "protocol://" + "bucketname" + "/" + (prefix + filename)
         == "protocol://bucketname/prefix/subprefix/filename.ext"
  {
    var key := prefix + filename;
    assert key == "prefix/subprefix/filename.ext";
    var head := "protocol://" + "bucketname" + "/";
    assert head == "protocol://bucketname/";
    assert |head + key| == 51;
    forall i | 0 <= i < 51
      ensures (head + key)[i] == "protocol://bucketname/prefix/subprefix/filename.ext"[i]
    {
      if i < 22 {
        assert (head + key)[i] == head[i];
      } else {
        assert (head + key)[i] == key[i - 22];
      }
    }
  }

  /** `stream`: an existing stream is returned as it is; without one and
      without a bucket name it is a RuntimeError; otherwise the object is
      downloaded once into a new byte stream at position 0, typed with the
      constructor's content type, and cached. */
  function GetStream(r: Resource, remote: Option<seq<byte>>): (out: (Resource, Result<S3Stream>))
    ensures r.stream.Some? ==> out == (r, Ok(r.stream.value))
    ensures r.stream.None? && r.bucketname == "" ==>
      out == (r, Err(RuntimeError("S3Resource does not have a stream.")))
    ensures r.stream.None? && r.bucketname != "" && r.filename == "" ==> out == (r, Key(r).PropagateFailure())
    ensures r.stream.None? && r.bucketname != "" && r.filename != "" ==>
      && out.0.log == r.log + [Download(r.bucketname, r.prefix + r.filename, r.extraArgs)]
      && (remote.None? ==> out == (r.(log := out.0.log), Err(ClientError)))
      && (remote.Some? ==>
            var st := S3Stream(BytesIo(remote.value), r.givenType);
            out == (r.(log := out.0.log, stream := Some(st)), Ok(st)))
  {
    if r.stream.Some? then (r, Ok(r.stream.value))
    else if r.bucketname == "" then (r, Err(RuntimeError("S3Resource does not have a stream.")))
    else
      match Key(r)
      case Err(e) => (r, Err(e))
      case Ok(key) =>
        var called := r.(log := r.log + [Download(r.bucketname, key, r.extraArgs)]);
        match remote
        case None => (called, Err(ClientError))
        case Some(bytes) =>
          var st := OverrideType(S3Stream(BytesIo(bytes), r.givenType), r.givenType);
          (called.(stream := Some(st)), Ok(st))
  }

  /** Asking for the stream twice downloads at most once: the second request
      returns the cached stream and makes no call. */
  lemma StreamDownloadsAtMostOnce(r: Resource, remote: Option<seq<byte>>, later: Option<seq<byte>>)
    requires GetStream(r, remote).1.Ok?
    ensures
      var first := GetStream(r, remote);
      var second := GetStream(first.0, later);
      second == (first.0, first.1)
  {
  }

  /** After a download with no content type given to the constructor, the
      resource reports "" as its content type: the downloaded stream is
      typed with the empty constructor value. */
  lemma DownloadedStreamTakesGivenType(r: Resource, bytes: seq<byte>)
    requires r.stream.None? && r.bucketname != "" && r.filename != "" && r.givenType == ""
    ensures ContentType(GetStream(r, Some(bytes)).0) == ""
  {
  }

  /** `read(size)`: reads from the stream, fetching it first when the
      resource has none. */
  function ResourceRead(r: Resource, size: int, remote: Option<seq<byte>>): (out: (Resource, Result<Data>))
    ensures GetStream(r, remote).1.Err? ==> out == (GetStream(r, remote).0, GetStream(r, remote).1.PropagateFailure())
    ensures out.1.Ok? <==> GetStream(r, remote).1.Ok? && !GetStream(r, remote).1.value.io.closed
    ensures out.1.Ok? ==>
      var read := StreamRead(GetStream(r, remote).1.value, size).value;
      && out.0 == GetStream(r, remote).0.(stream := Some(read.0))
      && out.1.value == read.1
    ensures GetStream(r, remote).1.Ok? && out.1.Err? ==> out.0 == GetStream(r, remote).0
  {
    var (fetched, st) := GetStream(r, remote);
    match st
    case Err(e) => (fetched, Err(e))
    case Ok(s) =>
      match StreamRead(s, size)
      case Err(e) => (fetched, Err(e))
      case Ok((s', d)) => (fetched.(stream := Some(s')), Ok(d))
  }

  /** `seek(offset, whence)`: moves the stream's cursor, fetching the stream
      first when the resource has none, and returns the new position. */
  function ResourceSeek(r: Resource, offset: int, whence: int, remote: Option<seq<byte>>): (out: (Resource, Result<nat>))
    ensures GetStream(r, remote).1.Err? ==> out == (GetStream(r, remote).0, GetStream(r, remote).1.PropagateFailure())
    ensures out.1.Ok? <==>
      GetStream(r, remote).1.Ok? && FileBuffer.Seek(GetStream(r, remote).1.value.io, offset, whence).Ok?
    ensures GetStream(r, remote).1.Ok? ==>
      var sought := StreamSeek(GetStream(r, remote).1.value, offset, whence);
      out == if sought.Ok? then (GetStream(r, remote).0.(stream := Some(sought.value)), Ok(sought.value.io.pos))
             else (GetStream(r, remote).0, Err(sought.error))
    ensures out.1.Ok? ==>
      && out.0.stream.Some?
      && out.1.value == out.0.stream.value.io.pos
      && out.0.stream.value.io.content == GetStream(r, remote).1.value.io.content
      && (whence == 0 ==> out.1.value == offset)
  {
    var (fetched, st) := GetStream(r, remote);
    match st
    case Err(e) => (fetched, Err(e))
    case Ok(s) =>
      match StreamSeek(s, offset, whence)
      case Err(e) => (fetched, Err(e))
      case Ok(s') => (fetched.(stream := Some(s')), Ok(s'.io.pos))
  }

  /** `close()`: closes the stream (fetching it first when the resource has
      none) and returns the resource. */
  function ResourceClose(r: Resource, remote: Option<seq<byte>>): (out: (Resource, Result<()>))
    ensures out.1.Ok? <==> GetStream(r, remote).1.Ok?
    ensures out.1.Err? ==> out == (GetStream(r, remote).0, GetStream(r, remote).1.PropagateFailure())
    ensures out.1.Ok? ==>
      && out.0 == GetStream(r, remote).0.(stream := Some(StreamClose(GetStream(r, remote).1.value)))
      && out.0.stream.value.io.closed
  {
    var (fetched, st) := GetStream(r, remote);
    match st
    case Err(e) => (fetched, Err(e))
    case Ok(s) => (fetched.(stream := Some(StreamClose(s))), Ok(()))
  }

  /** `get_value`: rewinds and reads the whole stream, fetching it first if
      needed, whatever the cursor was. */
  function GetValue(r: Resource, remote: Option<seq<byte>>): (out: (Resource, Result<Data>))
    ensures out.1.Ok? ==>
      && GetStream(r, remote).1.Ok?
      && out.1.value == GetStream(r, remote).1.value.io.content
      && out.0.log == GetStream(r, remote).0.log
    ensures GetStream(r, remote).1.Err? ==> out == (GetStream(r, remote).0, GetStream(r, remote).1.PropagateFailure())
    ensures GetStream(r, remote).1.Ok? ==> (out.1.Ok? <==> !GetStream(r, remote).1.value.io.closed)
    ensures GetStream(r, remote).1.Ok? ==>
      var read := S3Streams.GetValue(GetStream(r, remote).1.value);
      out == (GetStream(r, remote).0.(stream := Some(read.0)), read.1)
    ensures out.1.Ok? ==>
      var st := GetStream(r, remote).1.value;
      out.0 == GetStream(r, remote).0.(stream := Some(st.(io := st.io.(pos := st.io.content.Length()))))
  {
    var (fetched, st) := GetStream(r, remote);
    match st
    case Err(e) => (fetched, Err(e))
    case Ok(s) =>
      var (s', value) := S3Streams.GetValue(s);
      (fetched.(stream := Some(s')), value)
  }

  /** How `load` calls a constructor on a parsed document: with `unpack`, a
      JSON object becomes keyword arguments and an array positional ones;
      anything else, or no unpacking, is one argument. */
  function CallConstructor(j: Json, unpack: bool): (c: CtorArgs)
    ensures c.Keywords? <==> unpack && j.JObject?
    ensures c.Positional? <==> unpack && j.JArray?
    ensures c.Keywords? ==> c.fields == j.fields
    ensures c.Positional? ==> c.items == j.items
    ensures c.Single? ==> c.value == j
  {
    if unpack && j.JObject? then Keywords(j.fields)
    else if unpack && j.JArray? then Positional(j.items)
    else Single(j)
  }

  /** `load(constructor, unpack)`. Unless the content type is exactly
      "application/json" it raises TypeError before touching the stream.
      Otherwise it reads the whole stream and parses it (`parse` is
      `json.loads`, None when that raises), then returns the document or
      calls the constructor on it. */
  function Load(r: Resource, hasConstructor: bool, unpack: bool, remote: Option<seq<byte>>,
                parse: Data -> Option<Json>): (out: (Resource, Result<Loaded>))
    ensures ContentType(r) != ApplicationJson ==>
      out == (r, Err(TypeError("Content type is '" + ContentType(r) + "' instead 'application/json'.")))
    ensures ContentType(r) == ApplicationJson ==> out.0 == GetValue(r, remote).0
    ensures out.1.Ok? ==>
      && ContentType(r) == ApplicationJson
      && GetValue(r, remote).1.Ok?
      && parse(GetValue(r, remote).1.value).Some?
      && var j := parse(GetValue(r, remote).1.value).value;
         out.1.value == if hasConstructor then Constructed(CallConstructor(j, unpack)) else Parsed(j)
    ensures (ContentType(r) == ApplicationJson && GetValue(r, remote).1.Ok? &&
             parse(GetValue(r, remote).1.value).Some?) ==> out.1.Ok?
  {
    if ContentType(r) != ApplicationJson then
      (r, Err(TypeError("Content type is '" + ContentType(r) + "' instead 'application/json'.")))
    else
      var (r', text) := GetValue(r, remote);
      match text
      case Err(e) => (r', Err(e))
      case Ok(t) =>
        match parse(t)
        case None => (r', Err(ValueError("Expecting value")))
        case Some(j) =>
          if hasConstructor then (r', Ok(Constructed(CallConstructor(j, unpack)))) else (r', Ok(Parsed(j)))
  }

  /** `{"ContentType": ct, **extra_args, **kwargs}`: later entries win. */
  function ExtraArgs(contentType: string, extra: map<string, Arg>, kwargs: map<string, Arg>): (m: map<string, Arg>)
    ensures forall k :: k in m <==> k == "ContentType" || k in extra || k in kwargs
    ensures forall k :: k in kwargs ==> m[k] == kwargs[k]
    ensures forall k :: k in extra && k !in kwargs ==> m[k] == extra[k]
    ensures "ContentType" !in extra && "ContentType" !in kwargs ==> m["ContentType"] == StrArg(contentType)
  {
    map["ContentType" := StrArg(contentType)] + extra + kwargs
  }

  /** What `upload_fileobj` receives for a stream's whole content. */
  function BodyOf(d: Data): UploadBody {
    if d.Text? then Utf8Of(d.text) else RawBytes(d.bytes)
  }

  /** The call to `upload_fileobj` and the final rewind, once the stream has
      been read to its end (`done`). */
  function UploadAndRewind(r: Resource, done: S3Stream, bucket: string, key: string, body: UploadBody,
                           kwargs: map<string, Arg>, uploadOk: bool): (Resource, Result<()>) {
    var args := ExtraArgs(ContentType(r), r.extraArgs, kwargs);
    var sent := r.(stream := Some(done), log := r.log + [Upload(body, bucket, key, args)]);
    if !uploadOk then (sent, Err(UploadFailed))
    else
      match StreamSeek(done, 0, 0)
      case Err(e) => (sent, Err(e))
      case Ok(rewound) => (sent.(stream := Some(rewound)), Ok(()))
  }

  /** `save(bucketname, **kwargs)`. The bucket is the argument, else the
      resource's own; with neither it is a ValueError. A text stream is read
      and encoded as UTF-8, a byte stream is handed over as it is; either way
      the whole content from offset 0 is uploaded under the key with the
      merged extra arguments, and the stream is left at position 0. */
  function Save(r: Resource, bucketArg: string, kwargs: map<string, Arg>, remote: Option<seq<byte>>,
                uploadOk: bool): (out: (Resource, Result<()>))
    ensures bucketArg == "" && r.bucketname == "" ==>
      out == (r, Err(ValueError("S3 bucket name must be provided.")))
    ensures out.1.Ok? ==>
      var bucket := if bucketArg != "" then bucketArg else r.bucketname;
      var fetched := GetStream(r, remote).0;
      && GetStream(r, remote).1.Ok?
      && out.0 == fetched.(stream := out.0.stream, log := out.0.log)
      && out.0.stream.Some?
      && out.0.stream.value == GetStream(r, remote).1.value.(io := out.0.stream.value.io)
      && out.0.stream.value.io.content == GetStream(r, remote).1.value.io.content
      && out.0.stream.value.io.pos == 0
      && !out.0.stream.value.io.closed
      && out.0.log == fetched.log + [Upload(BodyOf(out.0.stream.value.io.content), bucket,
                                            r.prefix + r.filename,
                                            ExtraArgs(ContentType(out.0), r.extraArgs, kwargs))]
    ensures r.stream.Some? && !r.stream.value.io.closed && r.filename != "" && (bucketArg != "" || r.bucketname != "") ==>
      (out.1.Ok? <==> uploadOk)
  {
    var bucket := if bucketArg != "" then bucketArg else r.bucketname;
    if bucket == "" then (r, Err(ValueError("S3 bucket name must be provided.")))
    else
      var (fetched, st) := GetStream(r, remote);
      match st
      case Err(e) => (fetched, Err(e))
      case Ok(s0) =>
        match StreamSeek(s0, 0, 0)
        case Err(e) => (fetched, Err(e))
        case Ok(s1) =>
          match StreamRead(s1, 10)
          case Err(e) => (fetched.(stream := Some(s1)), Err(e))
          case Ok((s2, sample)) =>
            match StreamSeek(s2, 0, 0)
            case Err(e) => (fetched.(stream := Some(s2)), Err(e))
            case Ok(s3) =>
              var at0 := fetched.(stream := Some(s3));
              if sample.Text? then
                // the text is read (and encoded) before the key is looked up
                match StreamRead(s3, -1)
                case Err(e) => (at0, Err(e))
                case Ok((done, text)) =>
                  var read := at0.(stream := Some(done));
                  match Key(read)
                  case Err(e) => (read, Err(e))
                  case Ok(key) => UploadAndRewind(read, done, bucket, key, BodyOf(text), kwargs, uploadOk)
              else
                // the key is looked up before boto3 reads the stream
                match Key(at0)
                case Err(e) => (at0, Err(e))
                case Ok(key) =>
                  match StreamRead(s3, -1)
                  case Err(e) => (at0, Err(e))
                  case Ok((done, bytes)) => UploadAndRewind(at0, done, bucket, key, BodyOf(bytes), kwargs, uploadOk)
  }

  /** After a successful save, `get_value` returns exactly what was uploaded,
      without any further call. */
  lemma SavedContentIsReadBack(r: Resource, bucketArg: string, kwargs: map<string, Arg>,
                               remote: Option<seq<byte>>, later: Option<seq<byte>>)
    requires Save(r, bucketArg, kwargs, remote, true).1.Ok?
    ensures
      var saved := Save(r, bucketArg, kwargs, remote, true).0;
      var read := GetValue(saved, later);
      && read.1.Ok?
      && read.0.log == saved.log
      && saved.log[|saved.log| - 1].Upload?
      && saved.log[|saved.log| - 1].body == BodyOf(read.1.value)
  {
  }

  /** `__str__`: the URI, or the key when the URI raises ValueError (the key
      raising in turn when the filename is empty). */
  function Str(r: Resource): (s: Result<string>)
    ensures s.Ok? <==> r.filename != ""
    ensures Uri(r).Ok? ==> s == Uri(r)
    ensures Uri(r).Err? ==> s == Key(r)
  {
    match Uri(r)
    case Ok(u) => Ok(u)
    case Err(ValueError(_)) => Key(r)
    case Err(e) => Err(e)
  }
  /** `str(resource)` spelled out: the full URI when there is a bucket, the
      bare key without one, and the key's ValueError for an empty filename. */
  lemma StrIsFullPath(r: Resource)
    ensures r.bucketname != "" && r.filename != "" ==>
      Str(r) == Ok(r.protocol + r.bucketname + "/" + r.prefix + r.filename)
    ensures r.bucketname == "" && r.filename != "" ==> Str(r) == Ok(r.prefix + r.filename)
    ensures r.filename == "" ==> Str(r) == Err(ValueError("filename cannot be empty."))
  {
  }

  /** A resource built over a non-empty dict or list that encodes as JSON is
      typed "application/json" (unless another type is given), so `load`
      reads back exactly that encoding without downloading: `parse` applied
      to the JSON text, or the constructor called on it. */
  lemma LoadReadsBackEncodedObject(filename: string, contentType: string, bucketname: string, prefix: string,
                                   protocol: string, obj: Payload, kwargs: map<string, Arg>, randomName: string,
                                   env: Env, codecs: Codecs, remote: Option<seq<byte>>,
                                   parse: Data -> Option<Json>, j: Json)
    requires (obj.Dict? && obj.size > 0) || (obj.List? && obj.size > 0)
    requires codecs.json(obj).Some? && parse(Text(codecs.json(obj).value)) == Some(j)
    requires contentType == "" || contentType == ApplicationJson
    ensures
      var made := New(filename, contentType, bucketname, prefix, protocol, GivenPayload(obj), kwargs,
                       randomName, env, codecs);
      && made.Ok?
      && ContentType(made.value) == ApplicationJson
      && Load(made.value, false, true, remote, parse).1 == Ok(Parsed(j))
      && Load(made.value, false, true, remote, parse).0.log == []
      && Load(made.value, true, true, remote, parse).1 == Ok(Constructed(CallConstructor(j, true)))
  {
  }
}

=== FILE: s3_stream.dfy ===
/** `S3Stream`: a readable stream tagged with a MIME type, and the
    `from_any` / `from_object` / `from_pandas` / `from_io` / `from_file`
    conversions that turn a Python object into one. The serialisers (JSON,
    pickle, pandas) and the file system are parameters. */
module S3Streams {
  import opened Wrappers
  import opened FileBuffer
  import PyStr

  const OctetStream := "application/octet-stream"
  const ApplicationJson := "application/json"
  const ApplicationCsv := "application/csv"
  const TextPlain := "text/plain"

  /** A stream and its content type. */
  datatype S3Stream = S3Stream(io: Buffer, contentType: string)

  /** The kinds of object the conversions tell apart. Objects the model does
      not look inside are identified by a number. */
  datatype Payload =
    | Frame(frame: nat)                      // a pandas DataFrame or Series
    | Readable(io: Buffer)                   // any object with a callable `read`
    | Str(s: string)
    | Int(i: int)
    | Float(repr: string, nonzero: bool)     // a float and its `str`
    | Bool(b: bool)
    | Blob(bytes: seq<byte>)                 // `bytes`
    | Dict(size: nat, id: nat)
    | List(size: nat, id: nat)
    | Model(id: nat)                         // a pydantic BaseModel
    | Other(id: nat, truthy: bool)           // any other object

  /** The serialisers: `json.dumps` (None when it raises TypeError),
      `joblib.dump`, `DataFrame.to_csv`, `DataFrame.to_json` and
      `BaseModel.dict()`. */
  datatype Codecs = Codecs(
    json: Payload -> Option<string>,
    pickle: Payload -> seq<byte>,
    csv: nat -> string,
    frameJson: nat -> string,
    modelDict: nat -> Payload)

  /** A file on disk: its bytes and the MIME type `_infer_mime` reports for it. */
  datatype FileInfo = FileInfo(bytes: seq<byte>, mime: string)

  /** The file system, as far as `os.path.isfile` and `open` see it. */
  datatype Env = Env(files: map<string, FileInfo>)

  /** `str(obj)` for the four scalar kinds `from_object` converts to text. */
  predicate IsScalar(p: Payload) {
    p.Str? || p.Int? || p.Float? || p.Bool?
  }

  function ScalarText(p: Payload): string
    requires IsScalar(p)
  {
    match p
    case Str(s) => s
    case Int(i) => PyStr.IntToString(i)
    case Float(repr, _) => repr
    case Bool(b) => if b then "True" else "False"
  }

  /** A stream over a text value, positioned at 0. */
  function TextIo(t: string): Buffer {
    Buffer(Text(t), 0, false)
  }

  /** A stream over a bytes value, positioned at 0. */
  function BytesIo(b: seq<byte>): Buffer {
    Buffer(Bytes(b), 0, false)
  }

  /** `S3Stream.from_io(stream, content_type)`: wraps the stream as it is. */
  function FromIo(io: Buffer, contentType: string): S3Stream {
    S3Stream(io, contentType)
  }

  /** `S3Stream.from_file(path, content_type)`: the file opened "rb", typed
      with the given content type, or with the inferred one when none is
      given. */
  function FromFile(path: string, contentType: string, env: Env): S3Stream
    requires path in env.files
  {
    S3Stream(BytesIo(env.files[path].bytes), if contentType != "" then contentType else env.files[path].mime)
  }

  /** `S3Stream.from_pandas(df, output_as)`: CSV text typed
      "application/csv" exactly when `output_as` is "csv", JSON text typed
      "application/json" otherwise; the stream is rewound to 0. */
  function FromPandas(frame: nat, outputAs: string, codecs: Codecs): (st: S3Stream)
    ensures st.contentType == ApplicationCsv <==> outputAs == "csv"
    ensures st.contentType == ApplicationJson <==> outputAs != "csv"
    ensures st.io == TextIo(if outputAs == "csv" then codecs.csv(frame) else codecs.frameJson(frame))
  {
    if outputAs == "csv" then S3Stream(TextIo(codecs.csv(frame)), ApplicationCsv)
    else S3Stream(TextIo(codecs.frameJson(frame)), ApplicationJson)
  }

  /** A byte stream `joblib.dump` has written: the cursor is left at the
      end of the pickle, since nothing seeks back. */
  function DumpedIo(b: seq<byte>): Buffer {
    Buffer(Bytes(b), |b|, false)
  }

  /** What the pickle path serialises: a model has already been replaced by
      its `dict()` when JSON encoding was tried and failed. */
  function PickledObject(obj: Payload, codecs: Codecs): Payload {
    if obj.Model? then codecs.modelDict(obj.id) else obj
  }

  /** The content type `from_object` gives text made from a scalar: the
      default octet-stream becomes "text/plain", anything else (including
      "") is kept. */
  function TextContentType(contentType: string): (ct: string)
    ensures ct == TextPlain <==> contentType == OctetStream || contentType == TextPlain
    ensures contentType != OctetStream ==> ct == contentType
  {
    if contentType == OctetStream then TextPlain else contentType
  }

  /** The JSON encoding `from_object` tries for dicts, lists and models
      (a model through its `dict()`); None when there is none. */
  function JsonAttempt(obj: Payload, codecs: Codecs): Option<string> {
    if obj.Dict? || obj.List? then codecs.json(obj)
    else if obj.Model? then codecs.json(codecs.modelDict(obj.id))
    else None
  }

  /** `S3Stream.from_object(obj, content_type)`. */
  function FromObject(obj: Payload, contentType: string, env: Env, codecs: Codecs): (st: S3Stream)
    // scalars: a file path opens the file, other text becomes a text stream
    ensures IsScalar(obj) && ScalarText(obj) in env.files ==>
      st == FromFile(ScalarText(obj), contentType, env)
    ensures IsScalar(obj) && ScalarText(obj) !in env.files ==>
      st.io == TextIo(ScalarText(obj)) && st.contentType == TextContentType(contentType)
    // bytes keep the given content type
    ensures obj.Blob? ==> st.io == BytesIo(obj.bytes) && st.contentType == contentType
    // dicts, lists and models that encode as JSON are JSON, whatever was given
    ensures (obj.Dict? || obj.List?) && codecs.json(obj).Some? ==>
      st.io == TextIo(codecs.json(obj).value) && st.contentType == ApplicationJson
    ensures obj.Model? && codecs.json(codecs.modelDict(obj.id)).Some? ==>
      st.io == TextIo(codecs.json(codecs.modelDict(obj.id)).value) && st.contentType == ApplicationJson
    // a failed encoding, or any other object, is pickled with the given
    // content type, the cursor left at the end of the pickle
    ensures !IsScalar(obj) && !obj.Blob? && JsonAttempt(obj, codecs).None? ==>
      st.io == DumpedIo(codecs.pickle(PickledObject(obj, codecs))) && st.contentType == contentType
  {
    if IsScalar(obj) then
      var text := ScalarText(obj);
      if text in env.files then FromFile(text, contentType, env)
      else FromIo(TextIo(text), TextContentType(contentType))
    else if obj.Blob? then
      FromIo(BytesIo(obj.bytes), contentType)
    else
      var encoded := JsonAttempt(obj, codecs);
      if encoded.Some? then FromIo(TextIo(encoded.value), ApplicationJson)
      else S3Stream(DumpedIo(codecs.pickle(PickledObject(obj, codecs))), contentType)
  }

  /** `S3Stream.from_any(obj, content_type, output_as)`: pandas objects go to
      `from_pandas`, objects with a `read` to `from_io` with the content type
      as given, everything else to `from_object`. */
  function FromAny(obj: Payload, contentType: string, outputAs: string, env: Env, codecs: Codecs): (st: S3Stream)
    ensures obj.Frame? ==> st == FromPandas(obj.frame, outputAs, codecs)
    ensures obj.Readable? ==> st.io == obj.io && st.contentType == contentType
    ensures !obj.Frame? && !obj.Readable? ==> st == FromObject(obj, contentType, env, codecs)
  {
    match obj
    case Frame(frame) => FromPandas(frame, outputAs, codecs)
    case Readable(io) => FromIo(io, contentType)
    case _ => FromObject(obj, contentType, env, codecs)
  }

  /** `S3Stream.seek(offset, whence)`. */
  function StreamSeek(st: S3Stream, offset: int, whence: int): (r: Result<S3Stream>)
    ensures r.Ok? <==> FileBuffer.Seek(st.io, offset, whence).Ok?
    ensures r.Ok? ==> r.value == st.(io := FileBuffer.Seek(st.io, offset, whence).value)
    ensures r.Err? ==> r.error == FileBuffer.Seek(st.io, offset, whence).error
  {
    match FileBuffer.Seek(st.io, offset, whence)
    case Ok(io) => Ok(st.(io := io))
    case Err(e) => Err(e)
  }

  /** `S3Stream.read(size)`. */
  function StreamRead(st: S3Stream, size: int): (r: Result<(S3Stream, Data)>)
    ensures r.Ok? <==> !st.io.closed
    ensures r.Ok? ==>
      r.value == (st.(io := FileBuffer.Read(st.io, size).value.0), FileBuffer.Read(st.io, size).value.1)
    ensures r.Err? ==> r.error == ValueError(ClosedFileMessage)
  {
    match FileBuffer.Read(st.io, size)
    case Ok((io, d)) => Ok((st.(io := io), d))
    case Err(e) => Err(e)
  }

  /** `S3Stream.close()`: closes the wrapped stream and returns the same
      stream object. */
  function StreamClose(st: S3Stream): (r: S3Stream)
    ensures r.contentType == st.contentType && r.io.closed && r.io.content == st.io.content
  {
    st.(io := FileBuffer.Close(st.io))
  }

  /** `S3Stream.get_value()`: rewinds and reads everything, so the whole
      content comes back wherever the cursor was; the cursor ends at the end. */
  function GetValue(st: S3Stream): (r: (S3Stream, Result<Data>))
    ensures r.1.Ok? <==> !st.io.closed
    ensures r.1.Ok? ==>
      && r.1.value == st.io.content
      && r.0 == st.(io := st.io.(pos := st.io.content.Length()))
    ensures r.1.Err? ==> r.0 == st
  {
    match StreamSeek(st, 0, 0)
    case Err(e) => (st, Err(e))
    case Ok(rewound) =>
      match StreamRead(rewound, -1)
      case Err(e) => (rewound, Err(e))
      case Ok((done, d)) => (done, Ok(d))
  }

  /** Python truthiness of an object handed to `S3Resource` as its stream:
      asking it of a DataFrame or Series raises ValueError. */
  function Truthy(p: Payload): (r: Result<bool>)
    ensures r.Err? <==> p.Frame?
  {
    match p
    case Frame(_) => Err(ValueError("The truth value of a DataFrame is ambiguous."))
    case Readable(_) => Ok(true)
    case Str(s) => Ok(|s| > 0)
    case Int(i) => Ok(i != 0)
    case Float(_, nonzero) => Ok(nonzero)
    case Bool(b) => Ok(b)
    case Blob(bytes) => Ok(|bytes| > 0)
    case Dict(size, _) => Ok(size > 0)
    case List(size, _) => Ok(size > 0)
    case Model(_) => Ok(true)
    case Other(_, truthy) => Ok(truthy)
  }
  /** `from_io` does not rewind: reading the new stream continues from
      where the wrapped stream's cursor was, and `get_value` still sees the
      whole of it. */
  lemma FromIoKeepsCursor(io: Buffer, contentType: string, size: int)
    requires !io.closed
    ensures StreamRead(FromIo(io, contentType), size).Ok?
    ensures StreamRead(FromIo(io, contentType), size).value.1 == FileBuffer.Read(io, size).value.1
    ensures GetValue(FromIo(io, contentType)).1 == Ok(io.content)
  {
  }

  /** A stream made from a file reads back the file's bytes from the start,
      and is typed with the given type, or the inferred one when none is
      given. */
  lemma FromFileReadsWholeFile(path: string, contentType: string, env: Env)
    requires path in env.files
    ensures
      var st := FromFile(path, contentType, env);
      && StreamRead(st, -1).Ok?
      && StreamRead(st, -1).value.1 == Bytes(env.files[path].bytes)
      && (contentType == "" ==> st.contentType == env.files[path].mime)
      && (contentType != "" ==> st.contentType == contentType)
  {
    var b := env.files[path].bytes;
    var st := FromFile(path, contentType, env);
    if |b| == 0 {
      assert Bytes(b).EmptyLike() == Bytes(b);
    } else {
      assert Bytes(b).Slice(0, |b|) == Bytes(b);
    }
  }

  /** What `from_any` holds, as `get_value` sees it: the frame's CSV or
      JSON, the text of a scalar that is not a file, a file's bytes, bytes
      as they are, the JSON of an encodable dict or list, and otherwise the
      pickle. */
  lemma FromAnyContent(obj: Payload, contentType: string, outputAs: string, env: Env, codecs: Codecs)
    ensures
      var content := GetValue(FromAny(obj, contentType, outputAs, env, codecs)).1;
      && (obj.Frame? ==>
            content == Ok(Text(if outputAs == "csv" then codecs.csv(obj.frame) else codecs.frameJson(obj.frame))))
      && (obj.Readable? && !obj.io.closed ==> content == Ok(obj.io.content))
      && (IsScalar(obj) && ScalarText(obj) !in env.files ==> content == Ok(Text(ScalarText(obj))))
      && (IsScalar(obj) && ScalarText(obj) in env.files ==> content == Ok(Bytes(env.files[ScalarText(obj)].bytes)))
      && (obj.Blob? ==> content == Ok(Bytes(obj.bytes)))
      && ((obj.Dict? || obj.List?) && codecs.json(obj).Some? ==> content == Ok(Text(codecs.json(obj).value)))
      && (!obj.Frame? && !obj.Readable? && !IsScalar(obj) && !obj.Blob? && JsonAttempt(obj, codecs).None? ==>
            content == Ok(Bytes(codecs.pickle(PickledObject(obj, codecs)))))
  {
  }

  /** A pickled object's stream is left at its end: a read before any seek
      returns no bytes, while `get_value` (which rewinds) returns the pickle. */
  lemma PickledStreamReadsEmptyUntilRewound(id: nat, truthy: bool, contentType: string, env: Env, codecs: Codecs)
    ensures
      var st := FromAny(Other(id, truthy), contentType, "csv", env, codecs);
      && StreamRead(st, -1) == Ok((st, Bytes([])))
      && GetValue(st).1 == Ok(Bytes(codecs.pickle(Other(id, truthy))))
  {
  }
}

=== FILE: wrappers.dfy ===
/** Option and Result types shared by the model, and the Python exceptions the
    modelled code raises or lets escape. */
module Wrappers {

  /** Python's `None`-or-value. */
  datatype Option<+T> = None | Some(value: T)

  /** One constructor per kind of exception the modelled code raises. The
      message is kept where the source writes it out. */
  datatype PyError =
    | ValueError(message: string)
    | TypeError(message: string)
    | RuntimeError(message: string)
    /** io.UnsupportedOperation, raised by text-mode files. */
    | UnsupportedOperation(message: string)
    /** requests.HTTPError raised by `raise_for_status`, with the status code. */
    | HttpError(status: int)
    /** A failed boto3 download (botocore's ClientError). */
    | ClientError
    /** A failed boto3 upload (S3UploadFailedError). */
    | UploadFailed
    | DeprecationWarning(message: string)

  /** The value a Python call returns, or the exception it raises. */
  datatype Result<+T> = Ok(value: T) | Err(error: PyError) {

    predicate IsFailure() {
      Err?
    }

    function PropagateFailure<U>(): Result<U>
      requires Err?
    {
      Err(error)
    }

    function Extract(): T
      requires Ok?
    {
      value
    }
  }
}
